=== FILE: README.md ===
# LiCode game server, modelled in Dafny

LiCode is a one-on-one competitive coding service. Two players meet in one of
two ways. In a quick match they join a queue with a difficulty preference. In a
custom room one player creates a six-character room code, the other joins with
it, and the host starts the match. Both players then solve the same problem and
submit code. An external judge (Judge0) runs the code against the problem's test
cases. When both submissions are in, the server reveals both solutions and names
a winner.

This project models the backend's in-memory game state as one immutable record,
`GameState.State`, and every socket handler as a pure transition. A transition
returns the new state together with the events it emitted: the recipient, the
event name (the `Message` constructor) and the payload.

The record holds these tables:
- the legacy waiting list;
- the session-to-room bindings;
- the submission maps and each room's problem;
- the custom-room table;
- the quick-match queue;
- the rate limiter's timestamps.

The world outside the process enters as parameters:
- **Clock.** `Date.now()` is the parameter `now`.
- **Randomness.** Each `Math.random()` pick is a natural-number draw; the index it selects is the draw reduced modulo the number of candidates. Room-code characters come from a sequence of draws.
- **Live sockets.** The sockets that are still connected are a set.
- **Iteration order.** The order in which `Map.forEach` visits the room table is an explicit enumeration of its keys.
- **The judge.** It is an oracle. Each call yields an `Attempt`: a reply, a transport failure, or a reply malformed enough that reading it throws.

Modules follow the source files:
- `Common`: shared types.
- `Validation`: `validation.ts`.
- `Problems`: `problems.ts`.
- `CodeExecutor`: `codeExecutor.ts`.
- `RateLimiter`: `rateLimiter.ts`.
- `GameState`: `gameState.ts` plus the event and room records.
- `Rooms`: `rooms.ts`.
- `Matchmaking`: `matchmaking.ts`.
- `DuelHandler`: `duelhandler.ts`.
- `Signaling`: `signaling.ts`.
- `Server`: the handler wiring of `server.ts` and the whole-state invariant.

**Submissions are a small heap.** The submit handler keeps references across its
`await`. It holds the submission map it read, and the object it stored in that
map. So `State.boards` holds every submission map ever created, as an ordered
list of slots, because a JavaScript `Map` keeps insertion order. `State.submissions`
holds every submission object. `roomSubmissions` points each room at its current
map. The handler is split at the `await` into `DuelHandler.SubmitCode` and
`DuelHandler.CompleteSubmit`. The second step writes into the captured object and
tests the size of the captured map, whatever else has happened in between. This is
what makes a resubmission or a restarted room behave as it does in the source.

## Behaviour of the code worth knowing

These consequences of the code are easy to miss when reading it. The model keeps each of them, and the named lemmas state them.

- **Ties go to the second entry.** `determineWinner` (backend/src/socket/duelhandler.ts:122-134) reads the map's entries in insertion order. When neither side has results, the second entry wins, whatever the submit times (`DuelHandler.NoResultsSecondWins`). Every other tie also goes to the second entry, so the winner depends on insertion order (`DuelHandler.WinnerOrderDependence`).
- **A room can be revealed more than once.** Every completion tests the size of the map it captured (duelhandler.ts:100) and records nothing. So both completions in a room reveal (`DuelHandler.EveryCompletionReveals`, `DuelHandler.RevealCanRepeat`). The first reveal can come while the other submission is still unscored. The completing player then wins by default (duelhandler.ts:125-126).
- **The opponent hears of a submission only after scoring.** `opponent_submitted` is emitted at duelhandler.ts:98, after the judge has answered, not when the submission is accepted.
- **The rate limit is checked before validation.** `canSubmit` runs at duelhandler.ts:51, before the code and language checks at lines 57-66. It records the attempt at rateLimiter.ts:14-15, so a submission that then fails validation has still used up a slot in the window.
- **A quick match uses the joiner's preference.** `tryMatch` passes `currentUser.difficulty` to `createMatch` (matchmaking.ts:77). A joiner with `any` therefore gets a random problem, even when the waiting partner asked for `easy`.
- **Room bindings are loose.** `leave_room` deletes the caller's binding even when the caller is not in that room (rooms.ts:123-125). Nothing stops a session that is bound to one room from creating or joining another (rooms.ts:44, rooms.ts:92).
- **Submissions outlive a disconnect.** The disconnect handler deletes only the binding and keeps the room's submissions, so the remaining player can still see them (signaling.ts:17-18). `Signaling.Disconnect` keeps them too.

## Model

| member | source | states |
|---|---|---|
| Common.RemoveAll | backend/src/socket/signaling.ts:9 | filtering a list keeps exactly the other elements and never lengthens it |
| Common.RemoveAllAt | backend/src/socket/rooms.ts:123 | in a duplicate-free list, filtering out the element at position i removes exactly that position and keeps the rest in order |
| Validation.ValidateCode | backend/src/utils/validation.ts:1-9 | empty code gives 'Code is required'; non-empty code over 50000 UTF-16 units gives 'Code too large (max 50KB)'; everything else is valid — each case as an if-and-only-if |
| Validation.CodeLengthBounds | backend/src/utils/validation.ts:5-7 | non-empty code of at most 25000 characters always passes, and code of more than 50000 characters never does, whatever the characters |
| Validation.ValidateLanguage | backend/src/utils/validation.ts:11-13 | accepted iff the language is exactly javascript, python or java |
| Validation.ValidateRoomCode | backend/src/utils/validation.ts:15-17 | accepted iff the code has length 6 and every character is A-Z or 0-9 |
| Problems.GetRandomProblem | backend/src/data/problems.ts:33-35 | the result is an element of the (non-empty) catalogue |
| Problems.RandomProblemReachesAll | backend/src/data/problems.ts:34 | every catalogue entry is reachable by some draw |
| Problems.GetProblemById | backend/src/data/problems.ts:37-39 | nothing iff no problem has that id; otherwise the first problem in catalogue order with that id |
| Problems.OfDifficulty | backend/src/data/problems.ts:42 | the filtered list holds exactly the catalogue's problems of that difficulty |
| Problems.GetProblemByDifficulty | backend/src/data/problems.ts:41-44 | a problem of the requested difficulty whenever one exists, otherwise problems[0]; always a catalogue member |
| Problems.PickProblem | backend/src/socket/rooms.ts:173-175 | an `any` preference draws from the whole catalogue, any other preference yields a problem of that difficulty when one exists |
| Problems.CatalogueResolvesToTwoSum | backend/src/data/problems.ts:3-31 | with the shipped one-problem catalogue every lookup, by id, difficulty or at random, yields Two Sum |
| CodeExecutor.LanguageId | backend/src/services/codeExecutor.ts:18-22 | a judge language id exists exactly for the three validated languages: 63, 71 and 62 |
| CodeExecutor.FailureResult | backend/src/services/codeExecutor.ts:59-70 | a failed judge request becomes status 13 'Internal Error' (not Accepted), no stdout or compile output, time '0', memory 0; stderr is the error response's stderr when it has one and null otherwise; the message is the error response's message when it has one and the error's own message otherwise |
| CodeExecutor.Trim | backend/src/services/codeExecutor.ts:93-94 | the trimmed string is the slice between leading and trailing JavaScript whitespace, and neither starts nor ends with whitespace |
| CodeExecutor.ReplaceCrlfOnlyDropsCr | backend/src/services/codeExecutor.ts:93-94 | the CRLF replacement only deletes carriage returns: with every CR removed, output and input agree |
| CodeExecutor.ReplaceCrlfWithoutPair | backend/src/services/codeExecutor.ts:93 | text in which no CR is directly followed by an LF is left unchanged, lone carriage returns included |
| CodeExecutor.ReplaceCrlfConcat | backend/src/services/codeExecutor.ts:93 | the replacement works piecewise across any cut that does not split a CR LF pair |
| CodeExecutor.ReplaceCrlfLoneCr | backend/src/services/codeExecutor.ts:93 | pairs are matched left to right: CR CR LF becomes CR LF, CR CR CR LF becomes CR CR LF, and CR LF CR LF becomes two LFs |
| CodeExecutor.ReplaceCrlfEnds | backend/src/services/codeExecutor.ts:93-94 | the replacement keeps the first character unless it is a CR and the last unless it is an LF, so trimmed text stays trimmed |
| CodeExecutor.NormalizeHasNoOuterSpace | backend/src/services/codeExecutor.ts:93-94 | a normalised output neither starts nor ends with whitespace |
| CodeExecutor.NormalizeStdout | backend/src/services/codeExecutor.ts:93 | a missing stdout compares as the empty string |
| CodeExecutor.FirstTruthy | backend/src/services/codeExecutor.ts:108 | `a \|\| b \|\| c \|\| null`: the result is a non-empty option, every option before it is empty, and the result is null exactly when all options are empty |
| CodeExecutor.ScoreTest | backend/src/services/codeExecutor.ts:88-125 | a test passes iff the judge replied with status 3 and the normalised stdout equals the normalised expected output; a throwing reply records the raw expected output, empty actual output, the thrown message as error and status 'Error'; otherwise the error is the first non-empty one of stderr, compile output and message |
| CodeExecutor.RunTestCases | backend/src/services/codeExecutor.ts:74-130 | total is the number of test cases, there is one outcome per test case in order, and passed counts the outcomes marked passed, so 0 <= passed <= total |
| CodeExecutor.FailingJudgeScoresZero | backend/src/services/codeExecutor.ts:113-124 | when no judge call yields a reply, nothing passes |
| RateLimiter.Recent | backend/src/middleware/rateLimiter.ts:8 | a timestamp is kept iff it is less than 60000 ms old |
| RateLimiter.CanSubmit | backend/src/middleware/rateLimiter.ts:3-17 | rejected iff at least 5 recent timestamps remain; a rejection leaves the log unchanged; an admission stores the recent timestamps plus now, at most 5 of them, for that session only |
| RateLimiter.AtMostFivePerWindow | backend/src/middleware/rateLimiter.ts:3-17 | for a fresh session and a clock that never goes backwards, at most 5 calls are admitted within any 60000 ms window |
| GameState.RoomOf | backend/src/socket/duelhandler.ts:68-69 | a session counts as bound iff it has a non-empty binding |
| GameState.InstallMatch | backend/src/socket/rooms.ts:178-179 | the room gets a fresh empty submission map appended to the heap and its problem id; earlier maps are untouched and the heap stays well formed |
| Rooms.CodeChar | backend/src/socket/rooms.ts:21 | every draw selects a character of A-Z0-9 |
| Rooms.Attempt | backend/src/socket/rooms.ts:18-22 | one attempt spells six characters, each chosen by its draw |
| Rooms.GenerateRoomCode | backend/src/socket/rooms.ts:17-25 | a generated code has length 6, passes the room-code check and is not an active room; a free first attempt is returned as is |
| Rooms.GenerateRoomCodeFirstFree | backend/src/socket/rooms.ts:24 | the code returned is the first attempt that names no active room, and nothing is returned exactly when every attempt the draws supply collides |
| Rooms.EveryFreeCodeCanBeGenerated | backend/src/socket/rooms.ts:17-25 | every well-formed code that no active room holds is produced by some draws |
| Rooms.CreateRoom | backend/src/socket/rooms.ts:29-57 | the new room is hosted by the creator with players [creator], stored under a code that was free, the creator is bound to it, and only the creator is told, with isReady false |
| Rooms.CreateRoomKeepsRegistry | backend/src/socket/rooms.ts:32-44 | creating a room keeps every room well formed |
| Rooms.JoinRoom | backend/src/socket/rooms.ts:60-113 | errors in order (bad format, not found, full, already a member), each leaving the state unchanged; a success appends the joiner, binds it and sends the roster to the joiner and to the room |
| Rooms.JoinFillsRoom | backend/src/socket/rooms.ts:89-112 | in a well-formed registry a successful join leaves exactly two players, the joiner last, both payloads saying isReady |
| Rooms.JoinRoomKeepsRegistry | backend/src/socket/rooms.ts:77-92 | joining keeps every room well formed |
| Rooms.Depart | backend/src/socket/rooms.ts:123-135 | the leaver is filtered out; the room disappears iff nobody is left; a departing host is replaced by the first remaining player, any other host stays |
| Rooms.DepartKeepsRoom | backend/src/socket/rooms.ts:127-135 | a room that survives a departure is still non-empty, duplicate-free, at most two players, hosted by a player |
| Rooms.LeaveRoom | backend/src/socket/rooms.ts:116-149 | an unknown room is a no-op; otherwise the caller's binding goes, only that room changes, and the remaining players get the roster with isReady false |
| Rooms.LeaveRoomKeepsRegistry | backend/src/socket/rooms.ts:119-135 | leaving keeps every room well formed |
| Rooms.StartRoomMatch | backend/src/socket/rooms.ts:152-188 | fails unless the room exists, the caller hosts it and it has exactly two players, each failure leaving the state unchanged; a start appends an empty submission map for the room, records the problem id, removes the room, tells the room the problem, and changes nothing else |
| Rooms.DisconnectRooms | backend/src/socket/rooms.ts:191-216 | every visited room holding the session goes through the same departure as leave_room, rooms without it are untouched; each surviving changed room is sent its up-to-date roster, and no other event is sent: no two events share a room and none goes to a deleted room |
| Rooms.DisconnectRoomsClears | backend/src/socket/rooms.ts:195-215 | after a full pass no room holds the session and every room is still well formed |
| Rooms.SweepStaleRooms | backend/src/socket/rooms.ts:220-228 | a visited room is deleted iff now - createdAt > 3600000; every other room is unchanged |
| Rooms.SweepKeepsFreshRooms | backend/src/socket/rooms.ts:222-227 | a full sweep keeps exactly the rooms that are not stale, so the registry stays well formed |
| Matchmaking.CompatibleSymmetric | backend/src/socket/matchmaking.ts:63-65 | compatibility is symmetric and holds iff either side is 'any' or both are equal |
| Matchmaking.RemoveSession | backend/src/socket/matchmaking.ts:40 | the filtered queue keeps exactly the other sessions' entries, in order |
| Matchmaking.RemoveSessionAt | backend/src/socket/matchmaking.ts:47 | in a duplicate-free queue, removing a session drops exactly its one entry and keeps the rest in order |
| Matchmaking.FindSession | backend/src/socket/matchmaking.ts:55 | the first position holding the session, or nothing iff it is not queued |
| Matchmaking.FindPartner | backend/src/socket/matchmaking.ts:59-66 | the first other entry with a compatible preference, or nothing iff there is none |
| Matchmaking.TryMatch | backend/src/socket/matchmaking.ts:52-81 | no pairing with fewer than two entries, an unqueued joiner or no compatible entry; otherwise the joiner and its first partner, and the queue without both |
| Matchmaking.PairingRemovesExactlyTwo | backend/src/socket/matchmaking.ts:68-74 | after a newcomer joins a duplicate-free queue, a pairing removes exactly the newcomer and one earlier entry and keeps the others in order |
| Matchmaking.EstimatedWait | backend/src/socket/matchmaking.ts:122 | the estimate is 30 - 5*index clamped below at 10, so it lies in [10, 30] |
| Matchmaking.EstimatedWaitNonIncreasing | backend/src/socket/matchmaking.ts:122 | the estimate never grows further back in the queue |
| Matchmaking.QueueUpdatesFrom | backend/src/socket/matchmaking.ts:115-126 | every connected entry is sent position index+1, the queue length and its estimate; nothing goes to disconnected entries; updates go out in queue order with strictly increasing positions, so no entry is told twice |
| Matchmaking.CreateMatch | backend/src/socket/matchmaking.ts:83-113 | no effect when either socket is gone; otherwise both sessions are bound to room_p1_p2, the room gets a new empty submission map and a problem by the given preference, each player gets match_found, and nothing else changes |
| Matchmaking.MatchFoundNamesTheOpponent | backend/src/socket/matchmaking.ts:108-110 | each match_found names the other player as opponentId |
| Matchmaking.JoinQueue | backend/src/socket/matchmaking.ts:16-36 | an already queued session is ignored; otherwise the entry is appended with 'any' as the default, a match is tried with the joiner's preference, and the queue is broadcast (twice after a match) |
| Matchmaking.JoinQueueKeepsQueueOk | backend/src/socket/matchmaking.ts:18-27 | joining never creates a duplicate entry, and a match removes exactly one waiting entry besides the joiner |
| Matchmaking.JoinQueueKeepsHeap | backend/src/socket/matchmaking.ts:95-105 | joining keeps the submission heap well formed, leaves the existing boards and submissions as they were (a match only appends a board), leaves custom rooms alone and binds sessions to non-empty room ids |
| Matchmaking.LeaveQueue | backend/src/socket/matchmaking.ts:39-43 | the leaver's entry is removed, every other entry stays, and the rest of the queue is broadcast |
| Matchmaking.LeaveQueueKeepsOthers | backend/src/socket/matchmaking.ts:46-49 | leaving (or disconnecting) removes only the leaver's position, keeps the rest in order, and is a no-op for an unqueued session |
| DuelHandler.Lookup | backend/src/socket/duelhandler.ts:89 | a session has an entry iff some slot of the map holds it |
| DuelHandler.Put | backend/src/socket/duelhandler.ts:89 | Map.set keeps every slot's position and session, replaces only the caller's slot, and appends a new session at the end |
| DuelHandler.PutThenLookup | backend/src/socket/duelhandler.ts:89 | after set, get of the caller yields the new object and every other session's entry is unchanged |
| DuelHandler.PutKeepsDistinct | backend/src/socket/duelhandler.ts:89 | a map never holds two entries for one session |
| DuelHandler.DetermineWinner | backend/src/socket/duelhandler.ts:122-134 | the winner is always one of the two socket ids |
| DuelHandler.OutranksIsStrict | backend/src/socket/duelhandler.ts:125-133 | the ranking the winner follows (results beat none, more passed, then strictly earlier) is a strict order |
| DuelHandler.WinnerFollowsOutranks | backend/src/socket/duelhandler.ts:125-133 | the first entry wins iff it outranks the second; otherwise, ties included, the second wins |
| DuelHandler.WinnerOrderDependence | backend/src/socket/duelhandler.ts:132-133 | when one side outranks the other the entry order is irrelevant; on a tie swapping the entries swaps the winner |
| DuelHandler.NoResultsSecondWins | backend/src/socket/duelhandler.ts:125-126 | with no results on either side the second entry wins whatever the submit times |
| DuelHandler.RoomProblem | backend/src/socket/duelhandler.ts:74-75 | the room's problem is found iff it has a non-empty problem id naming a catalogue problem |
| DuelHandler.SubmitCode | backend/src/socket/duelhandler.ts:49-90 | checks in order: rate limit (state untouched), code, language (only the log changed), then silent no-ops for an unbound session or a room without a map, 'Problem not found', and finally a placeholder stored in the caller's slot and testing_code |
| DuelHandler.SubmitStoresPlaceholder | backend/src/socket/duelhandler.ts:82-90 | a refused submit changes at most the rate log; an accepted one stores a new placeholder with null results under the caller, replacing any earlier entry, and leaves other entries alone |
| DuelHandler.SubmitKeepsHeap | backend/src/socket/duelhandler.ts:82-89 | an accepted submit keeps the heap well formed and its continuation valid |
| DuelHandler.Solutions | backend/src/socket/duelhandler.ts:101-107 | the reveal lists the map's entries in insertion order with each object's current contents |
| DuelHandler.CompleteSubmit | backend/src/socket/duelhandler.ts:94-112 | the results go into the captured object only; the submitter gets test_results, the rest of the room opponent_submitted; a reveal follows iff the captured map has exactly two entries |
| DuelHandler.CompleteKeepsHeap | backend/src/socket/duelhandler.ts:95 | completing only fills in an existing object, so the heap and every other continuation stay valid |
| DuelHandler.RevealNamesAPlayer | backend/src/socket/duelhandler.ts:100-110 | a reveal lists both map entries in order and names one of them; the completing entry carries its results, and it wins by default against an unscored opponent |
| DuelHandler.EveryCompletionReveals | backend/src/socket/duelhandler.ts:100-112 | two completions against the same two-entry map both reveal |
| DuelHandler.RevealCanRepeat | backend/src/socket/duelhandler.ts:94-112 | a concrete room where the first completion reveals with A winning by default and the second completion reveals again |
| DuelHandler.VisibleCases | backend/src/socket/duelhandler.ts:37 | the practice cases are exactly the test cases not marked hidden |
| DuelHandler.VisibleCasesConcat | backend/src/socket/duelhandler.ts:37 | the filter distributes over concatenation, so the visible cases keep their order and multiplicity |
| DuelHandler.RunCode | backend/src/socket/duelhandler.ts:11-37 | the same code and language checks as submit but no rate limit; an unbound caller gets nothing; a room without a problem gives 'Problem not found'; the state never changes; only visible cases are scheduled |
| DuelHandler.JudgeLanguageKnown | backend/src/services/codeExecutor.ts:18-22 | whenever submit or run reaches the judge, the language has a judge language id |
| DuelHandler.FinishRun | backend/src/socket/duelhandler.ts:38-40 | the caller alone receives run_results, totalling the visible cases |
| DuelHandler.RunUsesVisibleCasesOnly | backend/src/data/problems.ts:20-23 | a practice run of Two Sum uses only its first, visible, test case |
| Signaling.Disconnect | backend/src/socket/signaling.ts:5-20 | the session leaves the waiting list; opponent_left goes to the rest of the room iff the session was bound, and then the binding is deleted; other bindings, submissions and problems are untouched |
| Signaling.DisconnectKeepsOtherWaiters | backend/src/socket/signaling.ts:9 | the other waiting sessions stay in order |
| Server.Dispatch | backend/src/server.ts:23-31 | only submit and run suspend at an await |
| Server.Resume | backend/src/socket/duelhandler.ts:94-95 | resuming a practice run changes no state; resuming a submission changes only the one submission object it created |
| Server.Sweep | backend/src/socket/rooms.ts:220-228 | one timer run keeps exactly the rooms that are not stale and nothing else changes |
| Server.DispatchKeepsValid | backend/src/server.ts:23-31 | every handler keeps the whole-state invariant: well-formed rooms, a duplicate-free queue, a well-formed submission heap, non-empty bindings; the heap only grows, and a new continuation is resumable |
| Server.InitialValid | backend/src/state/gameState.ts:3-6 | the empty tables the server starts with satisfy the whole-state invariant |
| Server.DispatchKeepsResumable | backend/src/socket/duelhandler.ts:94-95 | a handler suspended at its await can still be resumed after any other client event has been handled |
| Server.ResumeKeepsValid | backend/src/socket/duelhandler.ts:94-119 | resuming keeps the invariant and every other suspended continuation resumable |
| Server.SweepKeepsValid | backend/src/socket/rooms.ts:220-228 | the sweep keeps the invariant |
| Server.DisconnectCascade | backend/src/server.ts:27-30 | after the matchmaking, room and signaling disconnect handlers the session is in no queue, list, room or binding; submissions and problems stay; other sessions keep their bindings |
| Server.OpponentLeftOnce | backend/src/socket/signaling.ts:11-17 | opponent_left is sent iff the session was bound, exactly once, as the last event of the disconnect, addressed to the rest of its room |
| Server.SignalingTail | backend/src/socket/signaling.ts:11-17 | the signaling handler runs after the queue and room handlers and adds exactly one opponent_left event to the rest of the room when the session was bound, and no event otherwise |

## Left out

- `executeCode`'s HTTP request to the judge (the URL, the request limits, the 15-second timeout) and `checkJudge0Health`: network I/O. The judge is an oracle of `Attempt`s, and only the failure shape of lines 59-70 is modelled.
- socket.io room membership (`socket.join`, `socket.leave`). An event records its address (a session, a room, or a room minus the sender); who is subscribed to a room is not tracked.
- Logging, the environment-variable check and the server bootstrap in `server.ts`: no game logic.
- `setInterval` scheduling of the stale-room sweep: `Server.Sweep` is one run of the timer body at a given `now`.
- Rooms.GenerateRoomCode: the source retries until it finds a free code. The model consumes six draws per attempt, and when the draws run out it yields nothing and `create_room` does nothing.
- The `catch` branches that emit 'Failed to run test cases' in `run_code` and `submit_code`: `runTestCases` catches every failure per test case and never rejects, so these branches cannot be reached and are not modelled.
- Payloads of the wrong type: a non-string `code` or a difficulty outside easy, medium, hard and any. Handlers receive typed values here.
- DuelHandler.SubmitCode: one clock reading `now` stands for both `Date.now()` calls, the rate limiter's (rateLimiter.ts:4) and the submission's `submitTime` (duelhandler.ts:86). They run in one synchronous step, so only the clock's resolution could separate them.
- Concurrency beyond the interleaving at the `await`: each step runs to completion, as in Node's single thread. The model does not enumerate schedules; it proves per-step properties and the repeated-reveal instance.
- DuelHandler.FinishRun: states the recipient and the totals of the practice run, not the per-test outcomes; those are what `CodeExecutor.RunTestCases` states.
- Rooms.DisconnectRooms: stated for any duplicate-free visiting order. `Map.forEach` visits in insertion order; the model leaves that order as a parameter.
- The starter code, statement text, examples and constraints of a problem are display-only and left out of `Problems.Problem`.

=== FILE: code_executor.dfy ===
/** Scoring of submitted code against test cases. The judge service is an
    oracle: for each test case it yields one `Attempt`, which is what
    `executeCode` observed (a response, a transport failure, or a reply
    malformed enough that reading it throws). */
module CodeExecutor {
  import opened Common
  import opened Problems
  import opened Validation

  /** Judge0's status id for an accepted run. */
  const Accepted := 3
  /** The status id the client substitutes when the judge cannot be reached. */
  const InternalError := 13

  /** The judge's reply, with JSON `null` as `None`. */
  datatype ExecutionResult = ExecutionResult(
    statusId: int,
    description: string,
    stdout: Option<string>,
    stderr: Option<string>,
    compileOutput: Option<string>,
    time: Option<string>,
    memory: Option<int>,
    message: Option<string>)

  /** What one call to the judge produced. `TransportFailed` carries the
      stderr and message of the error response, if any, and the error's own
      message; `Malformed` is a reply without a status object, so that
      reading it throws inside the scoring loop. */
  datatype Attempt =
    | Responded(result: ExecutionResult)
    | TransportFailed(responseStderr: Option<string>, responseMessage: Option<string>, errorMessage: string)
    | Malformed(errorMessage: string)

  /** One entry of a test report. */
  datatype TestOutcome = TestOutcome(
    input: string,
    expected: string,
    actual: string,
    passed: bool,
    error: Option<string>,
    time: string,
    memory: int,
    status: string)

  datatype TestResults = TestResults(passed: nat, total: nat, results: seq<TestOutcome>)

  /** Judge0's language ids for the supported languages. */
  function LanguageId(language: string): (r: Option<int>)
    ensures r.Some? <==> ValidateLanguage(language)
    ensures language == "javascript" ==> r == Some(63)
    ensures language == "python" ==> r == Some(71)
    ensures language == "java" ==> r == Some(62)
  {
    if language == "javascript" then Some(63)
    else if language == "python" then Some(71)
    else if language == "java" then Some(62)
    else None
  }

  /** The result `executeCode` returns instead of throwing when the request fails. */
  function FailureResult(responseStderr: Option<string>, responseMessage: Option<string>, errorMessage: string): (r: ExecutionResult)
    ensures r.statusId == InternalError && r.statusId != Accepted
    ensures r.stdout.None? && r.compileOutput.None?
    ensures r.time == Some("0") && r.memory == Some(0)
    ensures Truthy(r.stderr) <==> Truthy(responseStderr)
    ensures Truthy(responseStderr) ==> r.stderr == responseStderr
    ensures !Truthy(responseStderr) ==> r.stderr.None?
    ensures r.description == "Internal Error"
    ensures Truthy(responseMessage) ==> r.message == responseMessage
    ensures !Truthy(responseMessage) ==> r.message == Some(errorMessage)
  {
    ExecutionResult(
      InternalError, "Internal Error", None,
      if Truthy(responseStderr) then responseStderr else None,
      None, Some("0"), Some(0),
      Some(if Truthy(responseMessage) then responseMessage.value else errorMessage))
  }

  /** What `executeCode` hands back: the reply itself, or the failure shape. */
  function ExecuteCode(attempt: Attempt): ExecutionResult
    requires !attempt.Malformed?
  {
    match attempt
    case Responded(r) => r
    case TransportFailed(stderr, message, error) => FailureResult(stderr, message, error)
  }

  // ---- output normalisation: `trim()` then `replace(/\r\n/g, '\n')` ----

  /** The characters `String.prototype.trim` removes: ECMAScript WhiteSpace
      (tab, vertical tab, form feed, space, no-break space, byte order mark and
      the space separators) and LineTerminator. */
  predicate IsJsWhitespace(c: char) {
    || c == '\t' || c == '\n' || c == '\U{B}' || c == '\U{C}' || c == '\r' || c == ' '
    || c == '\U{A0}' || c == '\U{1680}' || ('\U{2000}' <= c <= '\U{200A}')
    || c == '\U{2028}' || c == '\U{2029}' || c == '\U{202F}' || c == '\U{205F}'
    || c == '\U{3000}' || c == '\U{FEFF}'
  }

  /** The number of leading whitespace characters. */
  function LeadingSpace(s: string): (n: nat)
    ensures n <= |s|
    ensures forall k :: 0 <= k < n ==> IsJsWhitespace(s[k])
    ensures n < |s| ==> !IsJsWhitespace(s[n])
  {
    if s == [] || !IsJsWhitespace(s[0]) then 0 else 1 + LeadingSpace(s[1..])
  }

  /** The number of trailing whitespace characters. */
  function TrailingSpace(s: string): (n: nat)
    ensures n <= |s|
    ensures forall k :: |s| - n <= k < |s| ==> IsJsWhitespace(s[k])
    ensures n < |s| ==> !IsJsWhitespace(s[|s| - n - 1])
  {
    if s == [] || !IsJsWhitespace(s[|s| - 1]) then 0 else 1 + TrailingSpace(s[..|s| - 1])
  }

  /** `s.trim()`: the slice of `s` between its leading and trailing
      whitespace; it neither starts nor ends with whitespace. */
  function Trim(s: string): (r: string)
    ensures var i := LeadingSpace(s);
            && i + |r| <= |s| && r == s[i..i + |r|]
            && (forall k :: i + |r| <= k < |s| ==> IsJsWhitespace(s[k]))
    ensures r == [] ==> forall k :: 0 <= k < |s| ==> IsJsWhitespace(s[k])
    ensures r != [] ==> !IsJsWhitespace(r[0]) && !IsJsWhitespace(r[|r| - 1])
  {
    var i := LeadingSpace(s);
    TrimSlice(s, i);
    s[i..][..|s| - i - TrailingSpace(s[i..])]
  }

  /** Cutting the leading whitespace at `i` and then the trailing whitespace
      of the rest leaves a slice of `s` with no whitespace at either end. */
  lemma TrimSlice(s: string, i: nat)
    requires i == LeadingSpace(s)
    ensures var t := s[i..];
            var r := t[..|t| - TrailingSpace(t)];
            && i + |r| <= |s| && r == s[i..i + |r|]
            && (forall k :: i + |r| <= k < |s| ==> IsJsWhitespace(s[k]))
            && (r == [] ==> forall k :: 0 <= k < |s| ==> IsJsWhitespace(s[k]))
            && (r != [] ==> !IsJsWhitespace(r[0]) && !IsJsWhitespace(r[|r| - 1]))
  {
    var t := s[i..];
    var j := TrailingSpace(t);
    var r := t[..|t| - j];
    assert r == s[i..i + |r|];
    forall k | i + |r| <= k < |s| ensures IsJsWhitespace(s[k]) {
      assert s[k] == t[k - i];
    }
    if r != [] {
      assert r[0] == s[i] && r[|r| - 1] == t[|t| - j - 1];
    }
  }

  /** `s.replace(/\r\n/g, '\n')`: each CR LF pair, matched left to right,
      becomes a single LF. */
  function ReplaceCrlf(s: string): (r: string)
    ensures |r| <= |s|
  {
    if |s| >= 2 && s[0] == '\r' && s[1] == '\n' then "\n" + ReplaceCrlf(s[2..])
    else if s == [] then []
    else [s[0]] + ReplaceCrlf(s[1..])
  }

  /** The replacement only deletes carriage returns: removing every CR from
      the result gives what removing every CR from the input gives. */
  lemma {:induction false} ReplaceCrlfOnlyDropsCr(s: string)
    ensures RemoveAll(ReplaceCrlf(s), '\r') == RemoveAll(s, '\r')
  {
    if |s| >= 2 && s[0] == '\r' && s[1] == '\n' {
      ReplaceCrlfOnlyDropsCr(s[2..]);
      assert s[1..][1..] == s[2..];
      assert ("\n" + ReplaceCrlf(s[2..]))[1..] == ReplaceCrlf(s[2..]);
    } else if s != [] {
      ReplaceCrlfOnlyDropsCr(s[1..]);
      assert ([s[0]] + ReplaceCrlf(s[1..]))[1..] == ReplaceCrlf(s[1..]);
    }
  }

  /** No CR is immediately followed by an LF. */
  predicate NoCrlf(s: string) {
    forall i :: 0 <= i < |s| - 1 ==> !(s[i] == '\r' && s[i + 1] == '\n')
  }

  /** Text without a CR LF pair is left as it is, lone carriage returns
      included. */
  lemma {:induction false} ReplaceCrlfWithoutPair(s: string)
    requires NoCrlf(s)
    ensures ReplaceCrlf(s) == s
  {
    if s != [] {
      assert |s| >= 2 ==> !(s[0] == '\r' && s[1] == '\n');
      assert NoCrlf(s[1..]) by {
        forall i | 0 <= i < |s[1..]| - 1 ensures !(s[1..][i] == '\r' && s[1..][i + 1] == '\n') {
          assert s[1..][i] == s[i + 1] && s[1..][i + 1] == s[i + 2];
        }
      }
      ReplaceCrlfWithoutPair(s[1..]);
    }
  }

  /** Cutting text into `a` and `b` does not split a CR LF pair. */
  predicate CleanCut(a: string, b: string)
  {
    a == [] || b == [] || a[|a| - 1] != '\r' || b[0] != '\n'
  }

  /** The replacement works piecewise across any cut that does not split a
      CR LF pair. */
  lemma {:induction false} ReplaceCrlfConcat(a: string, b: string)
    requires CleanCut(a, b)
    ensures ReplaceCrlf(a + b) == ReplaceCrlf(a) + ReplaceCrlf(b)
  {
    if a == [] {
      assert a + b == b;
    } else if b == [] {
      assert a + b == a;
    } else if |a| >= 2 && a[0] == '\r' && a[1] == '\n' {
      PairHead(a, b);
      ReplaceCrlfConcat(a[2..], b);
    } else if |a| == 1 {
      SingleHead(a, b);
    } else {
      PlainHead(a, b);
      ReplaceCrlfConcat(a[1..], b);
    }
  }

  /** One step of `ReplaceCrlfConcat` when `a` starts with a CR LF pair. */
  lemma PairHead(a: string, b: string)
    requires |a| >= 2 && a[0] == '\r' && a[1] == '\n' && CleanCut(a, b)
    ensures CleanCut(a[2..], b)
    ensures ReplaceCrlf(a[2..] + b) == ReplaceCrlf(a[2..]) + ReplaceCrlf(b) ==>
              ReplaceCrlf(a + b) == ReplaceCrlf(a) + ReplaceCrlf(b)
  {
    assert (a + b)[2..] == a[2..] + b;
  }

  /** `ReplaceCrlfConcat` for a single character before the cut. */
  lemma SingleHead(a: string, b: string)
    requires |a| == 1 && b != [] && CleanCut(a, b)
    ensures ReplaceCrlf(a + b) == ReplaceCrlf(a) + ReplaceCrlf(b)
  {
    var c := a + b;
    assert c[0] == a[0] && c[1] == b[0] && c[1..] == b;
    assert !(c[0] == '\r' && c[1] == '\n');
    assert ReplaceCrlf(c) == [c[0]] + ReplaceCrlf(b);
    assert ReplaceCrlf(a) == [a[0]] by {
      assert a[1..] == [];
    }
    assert [c[0]] == [a[0]];
  }

  /** One step of `ReplaceCrlfConcat` when `a` has more than one character
      and does not start with a pair. */
  lemma PlainHead(a: string, b: string)
    requires |a| >= 2 && !(a[0] == '\r' && a[1] == '\n') && CleanCut(a, b)
    ensures CleanCut(a[1..], b)
    ensures ReplaceCrlf(a[1..] + b) == ReplaceCrlf(a[1..]) + ReplaceCrlf(b) ==>
              ReplaceCrlf(a + b) == ReplaceCrlf(a) + ReplaceCrlf(b)
  {
    var c := a + b;
    assert c[0] == a[0] && c[1] == a[1] && c[1..] == a[1..] + b;
  }

  /** Pairs are matched left to right: a CR before a CR LF pair survives. */
  lemma ReplaceCrlfLoneCr()
    ensures ReplaceCrlf("\r\r\n") == "\r\n"
    ensures ReplaceCrlf("\r\r\r\n") == "\r\r\n"
    ensures ReplaceCrlf("\r\n\r\n") == "\n\n"
  {
    assert "\r\r\n"[1..] == "\r\n";
    assert "\r\n\r\n"[2..] == "\r\n";
    assert "\r\r\r\n" == "\r\r" + "\r\n";
    ReplaceCrlfWithoutPair("\r\r");
    ReplaceCrlfConcat("\r\r", "\r\n");
  }

  /** The replacement keeps the first character unless it is a CR, and the
      last character unless it is an LF. */
  lemma {:induction false} ReplaceCrlfEnds(s: string)
    requires s != []
    ensures s[0] != '\r' ==> ReplaceCrlf(s) != [] && ReplaceCrlf(s)[0] == s[0]
    ensures s[|s| - 1] != '\n' ==> ReplaceCrlf(s) != [] && ReplaceCrlf(s)[|ReplaceCrlf(s)| - 1] == s[|s| - 1]
  {
    if |s| >= 2 && s[0] == '\r' && s[1] == '\n' {
      if s[|s| - 1] != '\n' {
        assert |s| > 2;
        ReplaceCrlfEnds(s[2..]);
      }
    } else if |s| > 1 {
      ReplaceCrlfEnds(s[1..]);
    }
  }

  /** How the expected output and the program's stdout are compared. */
  function Normalize(s: string): string {
    ReplaceCrlf(Trim(s))
  }

  /** A normalised string neither starts nor ends with whitespace. */
  lemma NormalizeHasNoOuterSpace(s: string)
    ensures var n := Normalize(s);
            n != [] ==> !IsJsWhitespace(n[0]) && !IsJsWhitespace(n[|n| - 1])
  {
    var t := Trim(s);
    if t != [] {
      ReplaceCrlfEnds(t);
    }
  }

  /** `(result.stdout?.trim() || '').replace(...)`: a missing stdout reads as
      the empty string. */
  function NormalizeStdout(stdout: Option<string>): (r: string)
    ensures stdout.None? ==> r == ""
  {
    match stdout
    case None => ""
    case Some(out) => Normalize(out)
  }

  /** `a || b || c || null` over optional strings. */
  function FirstTruthy(options: seq<Option<string>>): (r: Option<string>)
    ensures r.Some? ==> Truthy(r) && r in options
    ensures r.None? <==> forall o :: o in options ==> !Truthy(o)
    ensures r.Some? ==> exists i :: 0 <= i < |options| && options[i] == r
                                    && forall j :: 0 <= j < i ==> !Truthy(options[j])
  {
    if options == [] then None
    else if Truthy(options[0]) then options[0]
    else
      var rest := FirstTruthy(options[1..]);
      assert rest.Some? ==> exists i :: 0 < i < |options| && options[i] == rest
                                         && forall j :: 0 <= j < i ==> !Truthy(options[j]) by {
        if rest.Some? {
          var k :| 0 <= k < |options[1..]| && options[1..][k] == rest
                   && forall j :: 0 <= j < k ==> !Truthy(options[1..][j]);
          assert options[k + 1] == rest;
          forall j | 0 <= j < k + 1 ensures !Truthy(options[j]) {
            if j > 0 { assert options[j] == options[1..][j - 1]; }
          }
        }
      }
      rest
  }

  /** One iteration of the scoring loop. */
  function ScoreTest(tc: TestCase, attempt: Attempt): (r: TestOutcome)
    ensures r.input == tc.input
    ensures r.passed <==> attempt.Responded? && attempt.result.statusId == Accepted
                          && NormalizeStdout(attempt.result.stdout) == Normalize(tc.expectedOutput)
    ensures !attempt.Malformed? ==> r.expected == Normalize(tc.expectedOutput) && r.actual == NormalizeStdout(ExecuteCode(attempt).stdout)
    ensures attempt.Malformed? ==> r.expected == tc.expectedOutput && r.actual == "" && r.status == "Error"
    ensures attempt.Malformed? ==> r.error == Some(attempt.errorMessage)
    ensures !attempt.Malformed? ==>
              var result := ExecuteCode(attempt);
              r.error == FirstTruthy([result.stderr, result.compileOutput, result.message])
  {
    match attempt
    case Malformed(error) =>
      TestOutcome(tc.input, tc.expectedOutput, "", false, Some(error), "0", 0, "Error")
    case _ =>
      var result := ExecuteCode(attempt);
      var isAccepted := result.statusId == Accepted;
      var output := NormalizeStdout(result.stdout);
      var expected := Normalize(tc.expectedOutput);
      TestOutcome(
        tc.input, expected, output, isAccepted && output == expected,
        FirstTruthy([result.stderr, result.compileOutput, result.message]),
        if Truthy(result.time) then result.time.value else "0",
        if result.memory.Some? then result.memory.value else 0,
        result.description)
  }

  /** The number of entries marked passed. */
  function CountPassed(results: seq<TestOutcome>): (n: nat)
    ensures n <= |results|
  {
    if results == [] then 0
    else (if results[0].passed then 1 else 0) + CountPassed(results[1..])
  }

  /** `runTestCases`: one outcome per test case, in order, and the number passed. */
  function RunTestCases(testCases: seq<TestCase>, attempts: seq<Attempt>): (tr: TestResults)
    requires |attempts| == |testCases|
    ensures tr.total == |testCases| && |tr.results| == |testCases|
    ensures forall i :: 0 <= i < |testCases| ==> tr.results[i] == ScoreTest(testCases[i], attempts[i])
    ensures tr.passed == CountPassed(tr.results) && tr.passed <= tr.total
  {
    if testCases == [] then TestResults(0, 0, [])
    else
      var first := ScoreTest(testCases[0], attempts[0]);
      var rest := RunTestCases(testCases[1..], attempts[1..]);
      var results := [first] + rest.results;
      assert results[1..] == rest.results;
      TestResults((if first.passed then 1 else 0) + rest.passed, |testCases|, results)
  }

  /** A judge that never answers properly (every call fails in transport or
      returns garbage) scores nothing. */
  lemma {:induction false} FailingJudgeScoresZero(testCases: seq<TestCase>, attempts: seq<Attempt>)
    requires |attempts| == |testCases|
    requires forall i :: 0 <= i < |attempts| ==> !attempts[i].Responded?
    ensures RunTestCases(testCases, attempts).passed == 0
  {
    if testCases != [] {
      FailingJudgeScoresZero(testCases[1..], attempts[1..]);
    }
  }
}

=== FILE: common.dfy ===
/** Vocabulary shared by every handler: optional values, the identifiers the
    server passes around, difficulty preferences, and the array filtering the
    handlers use to drop a session from a list. */
module Common {

  /** A value that may be absent (`undefined`/`null` in the server). */
  datatype Option<+T> = None | Some(value: T) {
    function GetOr(default: T): T {
      match this
      case Some(v) => v
      case None => default
    }
  }

  /** An opaque connection identifier (a socket id). */
  type SessionId = string

  /** A room identifier: a six-character custom-room code or a quick-match id. */
  type RoomId = string

  /** A player's difficulty preference; problems themselves are never `Any`. */
  datatype Difficulty = Easy | Medium | Hard | Any

  /** JavaScript truthiness of an optional string: present and non-empty. */
  predicate Truthy(o: Option<string>) {
    o.Some? && o.value != ""
  }

  predicate Distinct<T(==)>(s: seq<T>) {
    forall i, j :: 0 <= i < j < |s| ==> s[i] != s[j]
  }

  /** `order` visits every key of `keys` exactly once, as `Map.forEach` does. */
  predicate IsEnumeration<T(==,!new)>(order: seq<T>, keys: set<T>) {
    && Distinct(order)
    && (forall k :: k in order ==> k in keys)
    && (forall k :: k in keys ==> k in order)
  }

  /** `s.filter(y => y !== x)`: every other element, in order. */
  function RemoveAll<T(==,!new)>(s: seq<T>, x: T): (r: seq<T>)
    ensures |r| <= |s|
    ensures forall y :: y in r <==> y in s && y != x
  {
    if s == [] then []
    else if s[0] == x then RemoveAll(s[1..], x)
    else [s[0]] + RemoveAll(s[1..], x)
  }

  lemma {:induction false} RemoveAllAbsent<T(!new)>(s: seq<T>, x: T)
    requires x !in s
    ensures RemoveAll(s, x) == s
  {
    if s != [] {
      RemoveAllAbsent(s[1..], x);
    }
  }

  /** Splitting off the head of a concatenation. */
  lemma ConcatTail<T>(a: seq<T>, b: seq<T>)
    requires a != []
    ensures (a + b)[0] == a[0] && (a + b)[1..] == a[1..] + b
  {
  }

  lemma {:induction false} RemoveAllConcat<T(!new)>(a: seq<T>, b: seq<T>, x: T)
    ensures RemoveAll(a + b, x) == RemoveAll(a, x) + RemoveAll(b, x)
  {
    if a == [] {
      assert a + b == b;
    } else {
      assert (a + b)[1..] == a[1..] + b;
      RemoveAllConcat(a[1..], b, x);
    }
  }

  /** In a duplicate-free list, filtering out `x` removes exactly its one position. */
  lemma {:induction false} RemoveAllAt<T(!new)>(s: seq<T>, i: nat)
    requires Distinct(s) && i < |s|
    ensures RemoveAll(s, s[i]) == s[..i] + s[i + 1..]
  {
    var x, before, after := s[i], s[..i], s[i + 1..];
    assert s == before + ([x] + after);
    forall j | 0 <= j < |before| ensures before[j] != x {
      assert before[j] == s[j];
    }
    forall j | 0 <= j < |after| ensures after[j] != x {
      assert after[j] == s[i + 1 + j];
    }
    RemoveAllConcat(before, [x] + after, x);
    RemoveAllConcat([x], after, x);
    assert RemoveAll([x], x) == [];
    RemoveAllAbsent(before, x);
    RemoveAllAbsent(after, x);
  }

  lemma {:induction false} RemoveAllDistinct<T(!new)>(s: seq<T>, x: T)
    requires Distinct(s)
    ensures Distinct(RemoveAll(s, x))
  {
    if s != [] {
      RemoveAllDistinct(s[1..], x);
      var t := RemoveAll(s[1..], x);
      assert s[0] !in t;
    }
  }
}

=== FILE: duel_handler.dfy ===
/** The duel coordinator: scoring submissions, the reveal, and practice runs.

    `submit_code` suspends at its `await` on the judge, so it is two
    transitions. `SubmitCode` runs up to the `await`: it returns the state,
    the events, and — when the judge is to be called — a `Pending` record
    holding what the handler captured (the submission map it read and the
    submission object it created). `CompleteSubmit` runs after the `await`
    on whatever state the server has reached by then, writing into those
    captured objects. `run_code` is split the same way. */
module DuelHandler {
  import opened Common
  import opened Validation
  import opened Problems
  import opened CodeExecutor
  import opened RateLimiter
  import opened GameState

  const RateLimitExceeded := "Rate limit exceeded. Wait 1 minute."
  const InvalidLanguage := "Invalid language"
  const ProblemNotFound := "Problem not found"
  const TestingNote := "Running test cases..."

  // ---- submission maps ----

  /** `map.get(id)`: the submission object a session's slot refers to. */
  function Lookup(board: seq<Slot>, id: SessionId): (r: Option<nat>)
    ensures r.None? <==> forall k :: 0 <= k < |board| ==> board[k].session != id
    ensures r.Some? ==> exists k :: 0 <= k < |board| && board[k] == Slot(id, r.value)
  {
    if board == [] then None
    else if board[0].session == id then Some(board[0].ref)
    else
      var r := Lookup(board[1..], id);
      if r.Some? then
        var k :| 0 <= k < |board[1..]| && board[1..][k] == Slot(id, r.value);
        assert board[k + 1] == Slot(id, r.value);
        r
      else r
  }

  /** `map.set(id, ref)`: an existing slot keeps its position and takes the
      new reference; a new session is appended. */
  function Put(board: seq<Slot>, id: SessionId, ref: nat): (r: seq<Slot>)
    ensures Lookup(board, id).Some? ==> |r| == |board|
    ensures Lookup(board, id).None? ==> |r| == |board| + 1 && r[|board|] == Slot(id, ref)
    ensures forall k :: 0 <= k < |board| ==> r[k].session == board[k].session
    ensures forall k :: 0 <= k < |board| && board[k].session != id ==> r[k] == board[k]
    ensures forall k :: 0 <= k < |r| ==> r[k] == Slot(id, ref) || (k < |board| && r[k] == board[k])
  {
    if board == [] then [Slot(id, ref)]
    else if board[0].session == id then [Slot(id, ref)] + board[1..]
    else
      var rest := Put(board[1..], id, ref);
      var r := [board[0]] + rest;
      assert r[1..] == rest;
      r
  }

  /** After `set`, `get` of the same session yields the new object and every
      other session's entry is unchanged: the map's own law. */
  lemma {:induction false} PutThenLookup(board: seq<Slot>, id: SessionId, ref: nat, other: SessionId)
    ensures Lookup(Put(board, id, ref), id) == Some(ref)
    ensures other != id ==> Lookup(Put(board, id, ref), other) == Lookup(board, other)
  {
    if board != [] && board[0].session != id {
      PutThenLookup(board[1..], id, ref, other);
      var r := Put(board, id, ref);
      assert r[1..] == Put(board[1..], id, ref);
    }
  }

  lemma {:induction false} PutKeepsDistinct(board: seq<Slot>, id: SessionId, ref: nat)
    requires DistinctSessions(board)
    ensures DistinctSessions(Put(board, id, ref))
  {
    var r := Put(board, id, ref);
    if Lookup(board, id).None? {
      forall i, j | 0 <= i < j < |r| ensures r[i].session != r[j].session {
        if j == |board| {
          assert board[i].session != id;
        }
      }
    }
  }

  // ---- determineWinner ----

  /** The reference order of the reveal: `a` outranks `b` when it has
      results and `b` has none, or it passed more tests, or it passed as many
      and was submitted strictly earlier. */
  predicate Outranks(a: Solution, b: Solution) {
    a.testResults.Some? &&
      (|| b.testResults.None?
       || a.testResults.value.passed > b.testResults.value.passed
       || (a.testResults.value.passed == b.testResults.value.passed && a.submitTime < b.submitTime))
  }

  /** `determineWinner` over the first two entries of the reveal. */
  function DetermineWinner(p1: Solution, p2: Solution): (w: SessionId)
    ensures w == p1.socketId || w == p2.socketId
  {
    if p1.testResults.None? || p2.testResults.None? then
      (if p1.testResults.Some? then p1.socketId else p2.socketId)
    else if p1.testResults.value.passed > p2.testResults.value.passed then p1.socketId
    else if p2.testResults.value.passed > p1.testResults.value.passed then p2.socketId
    else if p1.submitTime < p2.submitTime then p1.socketId
    else p2.socketId
  }

  /** Outranking is a strict order. */
  lemma OutranksIsStrict(a: Solution, b: Solution, c: Solution)
    ensures !Outranks(a, a)
    ensures Outranks(a, b) ==> !Outranks(b, a)
    ensures Outranks(a, b) && Outranks(b, c) ==> Outranks(a, c)
  {
  }

  /** The first entry wins exactly when it outranks the second; otherwise,
      ties included, the second entry wins. */
  lemma WinnerFollowsOutranks(p1: Solution, p2: Solution)
    requires p1.socketId != p2.socketId
    ensures DetermineWinner(p1, p2) == p1.socketId <==> Outranks(p1, p2)
    ensures DetermineWinner(p1, p2) == p2.socketId <==> !Outranks(p1, p2)
  {
  }

  /** When one entry outranks the other the order of the entries does not
      matter; on a tie (equal score and time, or no results on either side)
      whichever entry comes second wins, so swapping them changes the winner. */
  lemma WinnerOrderDependence(p1: Solution, p2: Solution)
    requires p1.socketId != p2.socketId
    ensures Outranks(p1, p2) || Outranks(p2, p1) ==> DetermineWinner(p1, p2) == DetermineWinner(p2, p1)
    ensures !Outranks(p1, p2) && !Outranks(p2, p1) ==>
              DetermineWinner(p1, p2) == p2.socketId && DetermineWinner(p2, p1) == p1.socketId
  {
    WinnerFollowsOutranks(p1, p2);
    WinnerFollowsOutranks(p2, p1);
    OutranksIsStrict(p1, p2, p1);
  }

  /** Neither side scored: the second entry wins whatever the submit times. */
  lemma NoResultsSecondWins(p1: Solution, p2: Solution)
    requires p1.testResults.None? && p2.testResults.None?
    ensures DetermineWinner(p1, p2) == p2.socketId
  {
  }

  // ---- looking up the room's problem ----

  /** `problemId ? getProblemById(problemId) : null`. */
  function RoomProblem(s: State, roomId: RoomId): (r: Option<Problem>)
    ensures r.Some? <==> roomId in s.roomProblems && s.roomProblems[roomId] != ""
                         && GetProblemById(Catalogue, s.roomProblems[roomId]).Some?
    ensures r.Some? ==> r.value in Catalogue && r.value.id == s.roomProblems[roomId]
  {
    if roomId in s.roomProblems && s.roomProblems[roomId] != "" then GetProblemById(Catalogue, s.roomProblems[roomId])
    else None
  }

  // ---- submit_code ----

  /** What the submit handler holds across its `await`: the submitter, the
      room, the submission map it read, the object it stored there, and the
      problem whose test cases are being run. */
  datatype Pending = Pending(session: SessionId, roomId: RoomId, board: nat, entry: nat, problem: Problem)

  predicate PendingOk(s: State, p: Pending) {
    p.board < |s.boards| && p.entry < |s.submissions|
  }

  /** What a submission passes through before the judge is called, in order:
      the rate limiter, the code and language checks, the room binding, the
      room's submission map and the room's problem. */
  function SubmitCode(s: State, id: SessionId, code: string, language: string, now: int): (r: (Outcome, Option<Pending>))
    requires HeapOk(s)
    ensures var o, pending := r.0, r.1;
            var d := CanSubmit(s.submissionTimes, id, now);
            var s1 := s.(submissionTimes := d.log);
            && (!d.admitted ==> o == Outcome(s, [Event(ToSession(id), SubmissionError(RateLimitExceeded))]) && pending.None?)
            && (d.admitted && ValidateCode(code).Invalid? ==>
                  o == Outcome(s1, [Event(ToSession(id), SubmissionError(ValidateCode(code).error))]) && pending.None?)
            && (d.admitted && ValidateCode(code).Valid? && !ValidateLanguage(language) ==>
                  o == Outcome(s1, [Event(ToSession(id), SubmissionError(InvalidLanguage))]) && pending.None?)
            && (d.admitted && ValidateCode(code).Valid? && ValidateLanguage(language) ==>
                  match RoomOf(s1, id)
                  case None => o == Outcome(s1, []) && pending.None?
                  case Some(roomId) =>
                    if roomId !in s.roomSubmissions then o == Outcome(s1, []) && pending.None?
                    else if RoomProblem(s, roomId).None? then
                      o == Outcome(s1, [Event(ToSession(id), SubmissionError(ProblemNotFound))]) && pending.None?
                    else
                      var b := s.roomSubmissions[roomId];
                      && pending == Some(Pending(id, roomId, b, |s.submissions|, RoomProblem(s, roomId).value))
                      && o.state == s1.(submissions := s.submissions + [Submission(code, language, None, now)],
                                        boards := s.boards[b := Put(s.boards[b], id, |s.submissions|)])
                      && o.events == [Event(ToSession(id), TestingCode(TestingNote))])
  {
    var d := CanSubmit(s.submissionTimes, id, now);
    if !d.admitted then (Outcome(s, [Event(ToSession(id), SubmissionError(RateLimitExceeded))]), None)
    else
      var s1 := s.(submissionTimes := d.log);
      match ValidateCode(code)
      case Invalid(error) => (Outcome(s1, [Event(ToSession(id), SubmissionError(error))]), None)
      case Valid =>
        if !ValidateLanguage(language) then (Outcome(s1, [Event(ToSession(id), SubmissionError(InvalidLanguage))]), None)
        else
          match RoomOf(s1, id)
          case None => (Outcome(s1, []), None)
          case Some(roomId) =>
            if roomId !in s1.roomSubmissions then (Outcome(s1, []), None)
            else
              match RoomProblem(s1, roomId)
              case None => (Outcome(s1, [Event(ToSession(id), SubmissionError(ProblemNotFound))]), None)
              case Some(problem) =>
                var b := s1.roomSubmissions[roomId];
                var entry := |s1.submissions|;
                var s2 := s1.(submissions := s1.submissions + [Submission(code, language, None, now)],
                              boards := s1.boards[b := Put(s1.boards[b], id, entry)]);
                (Outcome(s2, [Event(ToSession(id), TestingCode(TestingNote))]), Some(Pending(id, roomId, b, entry, problem)))
  }

  /** A refused submission changes nothing but the rate limiter's log, and
      the limiter's own refusal changes nothing at all; only an accepted one
      touches the submission maps, and then only by storing a placeholder
      without results in the submitter's slot of the room's current map,
      replacing what the submitter stored there before. */
  lemma SubmitStoresPlaceholder(s: State, id: SessionId, code: string, language: string, now: int)
    requires HeapOk(s)
    ensures var (o, pending) := SubmitCode(s, id, code, language, now);
            && (!CanSubmit(s.submissionTimes, id, now).admitted ==> o.state == s)
            && (pending.None? ==> o.state == s.(submissionTimes := o.state.submissionTimes))
            && (pending.Some? ==>
                  var p := pending.value;
                  var before, after := s.boards[p.board], o.state.boards[p.board];
                  && p.session == id && p.entry < |o.state.submissions|
                  && o.state.submissions[p.entry] == Submission(code, language, None, now)
                  && p.entry !in (set k | 0 <= k < |before| :: before[k].ref)
                  && Lookup(after, id) == Some(p.entry)
                  && (forall other :: other != id ==> Lookup(after, other) == Lookup(before, other))
                  && |after| == |before| + (if Lookup(before, id).Some? then 0 else 1))
  {
    var (o, pending) := SubmitCode(s, id, code, language, now);
    if pending.Some? {
      var p := pending.value;
      forall other {
        PutThenLookup(s.boards[p.board], id, p.entry, other);
      }
    }
  }

  /** Storing a new object in one map keeps every reference resolvable. */
  lemma StoreKeepsHeap(s: State, b: nat, id: SessionId, sub: Submission)
    requires HeapOk(s) && b < |s.boards|
    ensures HeapOk(s.(submissions := s.submissions + [sub], boards := s.boards[b := Put(s.boards[b], id, |s.submissions|)]))
  {
    PutKeepsDistinct(s.boards[b], id, |s.submissions|);
  }

  /** An accepted submission keeps the heap well formed and leaves its
      pending continuation pointing into it. */
  lemma SubmitKeepsHeap(s: State, id: SessionId, code: string, language: string, now: int)
    requires HeapOk(s)
    ensures var (o, pending) := SubmitCode(s, id, code, language, now);
            HeapOk(o.state) && (pending.Some? ==> PendingOk(o.state, pending.value))
  {
    var (o, pending) := SubmitCode(s, id, code, language, now);
    if pending.Some? {
      var p := pending.value;
      var s1 := s.(submissionTimes := o.state.submissionTimes);
      StoreKeepsHeap(s1, p.board, id, Submission(code, language, None, now));
    }
  }

  // ---- after the await ----

  /** One entry of `reveal_solutions`, read from a slot of the map. */
  function SolutionOf(slot: Slot, sub: Submission): Solution {
    Solution(slot.session, sub.code, sub.language, sub.testResults, sub.submitTime)
  }

  /** `Array.from(submissions.entries()).map(...)`: the map's entries in
      insertion order, each with the current contents of its object. */
  function Solutions(submissions: seq<Submission>, board: seq<Slot>): (r: seq<Solution>)
    requires forall k :: 0 <= k < |board| ==> board[k].ref < |submissions|
    ensures |r| == |board|
    ensures forall k :: 0 <= k < |board| ==> r[k] == SolutionOf(board[k], submissions[board[k].ref])
  {
    seq(|board|, k requires 0 <= k < |board| => SolutionOf(board[k], submissions[board[k].ref]))
  }

  /** The second half of `submit_code`: the scored results go into the object
      the handler created, the submitter gets them, the rest of the room is
      told someone submitted, and — if the map the handler captured now holds
      two sessions — the room gets both solutions and the winner. */
  function CompleteSubmit(s: State, p: Pending, attempts: seq<Attempt>): (o: Outcome)
    requires HeapOk(s) && PendingOk(s, p)
    requires |attempts| == |p.problem.testCases|
    ensures var results := RunTestCases(p.problem.testCases, attempts);
            var board := s.boards[p.board];
            && o.state == s.(submissions := s.submissions[p.entry := s.submissions[p.entry].(testResults := Some(results))])
            && |o.events| >= 2
            && o.events[0] == Event(ToSession(p.session), TestResultsReady(results))
            && o.events[1] == Event(ToRoomExcept(p.roomId, p.session), OpponentSubmitted)
            && (|o.events| == 3 <==> |board| == 2)
            && (|board| != 2 ==> |o.events| == 2)
            && (|board| == 2 ==>
                  var solutions := Solutions(o.state.submissions, board);
                  o.events[2] == Event(ToRoom(p.roomId), RevealSolutions(solutions, DetermineWinner(solutions[0], solutions[1]), p.problem)))
  {
    var results := RunTestCases(p.problem.testCases, attempts);
    var s1 := s.(submissions := s.submissions[p.entry := s.submissions[p.entry].(testResults := Some(results))]);
    var board := s1.boards[p.board];
    var notes := [Event(ToSession(p.session), TestResultsReady(results)), Event(ToRoomExcept(p.roomId, p.session), OpponentSubmitted)];
    if |board| == 2 then
      var solutions := Solutions(s1.submissions, board);
      Outcome(s1, notes + [Event(ToRoom(p.roomId), RevealSolutions(solutions, DetermineWinner(solutions[0], solutions[1]), p.problem))])
    else Outcome(s1, notes)
  }

  /** Completing a submission only fills in an object that already exists,
      so the heap stays well formed and every other pending continuation
      stays valid. */
  lemma CompleteKeepsHeap(s: State, p: Pending, attempts: seq<Attempt>, q: Pending)
    requires HeapOk(s) && PendingOk(s, p) && |attempts| == |p.problem.testCases|
    ensures var s' := CompleteSubmit(s, p, attempts).state;
            && HeapOk(s') && |s'.boards| == |s.boards| && |s'.submissions| == |s.submissions|
            && (PendingOk(s, q) ==> PendingOk(s', q))
  {
  }

  /** What a reveal says. Its two solutions are the captured map's slots in
      insertion order, and the winner is one of those two sessions. When the
      completing submission is still its session's entry in that map, its
      solution carries the results just computed; and if the other entry is
      still unscored, the completing session wins by default. */
  lemma RevealNamesAPlayer(s: State, p: Pending, attempts: seq<Attempt>)
    requires HeapOk(s) && PendingOk(s, p) && |attempts| == |p.problem.testCases|
    requires |s.boards[p.board]| == 2
    ensures var o := CompleteSubmit(s, p, attempts);
            var board := s.boards[p.board];
            var shown := o.events[2].message;
            && shown.RevealSolutions?
            && |shown.solutions| == 2
            && shown.solutions[0].socketId == board[0].session && shown.solutions[1].socketId == board[1].session
            && (shown.winner == board[0].session || shown.winner == board[1].session)
            && (Lookup(board, p.session) == Some(p.entry) ==>
                  && (forall k :: 0 <= k < 2 && board[k].session == p.session ==>
                        shown.solutions[k].testResults == Some(RunTestCases(p.problem.testCases, attempts)))
                  && (forall k :: (0 <= k < 2 && board[k].session != p.session
                                   && o.state.submissions[board[k].ref].testResults.None?) ==> shown.winner == p.session))
  {
    var o := CompleteSubmit(s, p, attempts);
    var board := s.boards[p.board];
    assert board[0].session != board[1].session;
    if Lookup(board, p.session) == Some(p.entry) {
      var j :| 0 <= j < |board| && board[j] == Slot(p.session, p.entry);
      forall k | 0 <= k < 2 && board[k].session == p.session
        ensures board[k].ref == p.entry
      {
        assert k == j;
      }
    }
  }

  // ---- run_code ----

  /** The test cases a practice run uses: the visible ones, in order. */
  function VisibleCases(cases: seq<TestCase>): (r: seq<TestCase>)
    ensures |r| <= |cases|
    ensures forall c :: c in r <==> c in cases && !c.isHidden
  {
    if cases == [] then []
    else if cases[0].isHidden then VisibleCases(cases[1..])
    else [cases[0]] + VisibleCases(cases[1..])
  }

  /** Filtering distributes over concatenation, so the visible cases keep
      their relative order and multiplicity. */
  lemma {:induction false} VisibleCasesConcat(a: seq<TestCase>, b: seq<TestCase>)
    ensures VisibleCases(a + b) == VisibleCases(a) + VisibleCases(b)
  {
    if a == [] {
      assert a + b == b;
    } else {
      assert (a + b)[1..] == a[1..] + b;
      VisibleCasesConcat(a[1..], b);
    }
  }

  /** What a practice run holds across its `await`. */
  datatype RunJob = RunJob(session: SessionId, cases: seq<TestCase>)

  /** `run_code` up to its `await`: the same code, language and problem checks
      as a submission, but no rate limiting, and the state is never touched. */
  function RunCode(s: State, id: SessionId, code: string, language: string): (r: (Outcome, Option<RunJob>))
    ensures r.0.state == s
    ensures ValidateCode(code).Invalid? ==>
              r.0.events == [Event(ToSession(id), SubmissionError(ValidateCode(code).error))] && r.1.None?
    ensures ValidateCode(code).Valid? && !ValidateLanguage(language) ==>
              r.0.events == [Event(ToSession(id), SubmissionError(InvalidLanguage))] && r.1.None?
    ensures ValidateCode(code).Valid? && ValidateLanguage(language) && RoomOf(s, id).None? ==> r == (Outcome(s, []), None)
    ensures ValidateCode(code).Valid? && ValidateLanguage(language) && RoomOf(s, id).Some?
            && RoomProblem(s, RoomOf(s, id).value).None? ==>
              r.0.events == [Event(ToSession(id), SubmissionError(ProblemNotFound))] && r.1.None?
    ensures r.1.Some? <==> ValidateCode(code).Valid? && ValidateLanguage(language) && RoomOf(s, id).Some?
                           && RoomProblem(s, RoomOf(s, id).value).Some?
    ensures r.1.Some? ==> r.0.events == [] && r.1.value.session == id
                          && r.1.value.cases == VisibleCases(RoomProblem(s, RoomOf(s, id).value).value.testCases)
  {
    match ValidateCode(code)
    case Invalid(error) => (Outcome(s, [Event(ToSession(id), SubmissionError(error))]), None)
    case Valid =>
      if !ValidateLanguage(language) then (Outcome(s, [Event(ToSession(id), SubmissionError(InvalidLanguage))]), None)
      else
        match RoomOf(s, id)
        case None => (Outcome(s, []), None)
        case Some(roomId) =>
          match RoomProblem(s, roomId)
          case None => (Outcome(s, [Event(ToSession(id), SubmissionError(ProblemNotFound))]), None)
          case Some(problem) => (Outcome(s, []), Some(RunJob(id, VisibleCases(problem.testCases))))
  }

  /** Whenever a handler reaches its `await`, the language passed validation,
      so the judge request carries one of the three language ids. */
  lemma JudgeLanguageKnown(s: State, id: SessionId, code: string, language: string, now: int)
    requires HeapOk(s)
    ensures SubmitCode(s, id, code, language, now).1.Some? ==> LanguageId(language).Some?
    ensures RunCode(s, id, code, language).1.Some? ==> LanguageId(language).Some?
  {
    var d := CanSubmit(s.submissionTimes, id, now);
    if SubmitCode(s, id, code, language, now).1.Some? {
      assert d.admitted && ValidateCode(code).Valid? && ValidateLanguage(language);
    }
  }

  /** `run_code` after its `await`: the caller alone gets the results. */
  function FinishRun(job: RunJob, attempts: seq<Attempt>): (e: Event)
    requires |attempts| == |job.cases|
    ensures e.to == ToSession(job.session) && e.message.RunResults?
    ensures e.message.results.total == |job.cases| && e.message.results.passed <= |job.cases|
  {
    Event(ToSession(job.session), RunResults(RunTestCases(job.cases, attempts)))
  }

  /** With the shipped catalogue a practice run executes only the first of
      Two Sum's two test cases; a submission executes both. */
  lemma RunUsesVisibleCasesOnly()
    ensures VisibleCases(TwoSum.testCases) == [TwoSum.testCases[0]]
  {
  }

  // ---- the reveal is not exactly-once ----

  /** Every completion whose captured map holds two sessions reveals, so two
      submissions to one room reveal twice: nothing records that the room
      was already revealed. */
  lemma EveryCompletionReveals(s: State, p: Pending, q: Pending, xp: seq<Attempt>, xq: seq<Attempt>)
    requires HeapOk(s) && PendingOk(s, p) && PendingOk(s, q) && p.board == q.board
    requires |xp| == |p.problem.testCases| && |xq| == |q.problem.testCases|
    requires |s.boards[p.board]| == 2
    ensures var first := CompleteSubmit(s, p, xp);
            && HeapOk(first.state) && PendingOk(first.state, q)
            && |first.events| == 3 && first.events[2].message.RevealSolutions?
            && var second := CompleteSubmit(first.state, q, xq);
               |second.events| == 3 && second.events[2].message.RevealSolutions?
  {
    CompleteKeepsHeap(s, p, xp, q);
  }

  /** A concrete instance: A and B have both stored placeholders and the
      judge fails every call. A's completion reveals with B still unscored, so
      A wins by default; B's completion then reveals a second time. */
  lemma RevealCanRepeat()
    ensures var s := Initial.(roomSubmissions := map["R" := 0], boards := [[Slot("A", 0), Slot("B", 1)]],
                              submissions := [Submission("x", "python", None, 0), Submission("y", "python", None, 1)]);
            var pa, pb := Pending("A", "R", 0, 0, TwoSum), Pending("B", "R", 0, 1, TwoSum);
            var fails := [Malformed("down"), Malformed("down")];
            var first := CompleteSubmit(s, pa, fails);
            && |first.events| == 3 && first.events[2].message.RevealSolutions?
            && first.events[2].message.winner == "A"
            && HeapOk(first.state) && PendingOk(first.state, pb)
            && var second := CompleteSubmit(first.state, pb, fails);
               |second.events| == 3 && second.events[2].message.RevealSolutions?
  {
    var s := Initial.(roomSubmissions := map["R" := 0], boards := [[Slot("A", 0), Slot("B", 1)]],
                      submissions := [Submission("x", "python", None, 0), Submission("y", "python", None, 1)]);
    var pa, pb := Pending("A", "R", 0, 0, TwoSum), Pending("B", "R", 0, 1, TwoSum);
    var fails := [Malformed("down"), Malformed("down")];
    assert HeapOk(s);
    assert Lookup(s.boards[0], "A") == Some(0);
    RevealNamesAPlayer(s, pa, fails);
    EveryCompletionReveals(s, pa, pb, fails, fails);
  }
}

=== FILE: game_state.dfy ===
/** The server's in-memory state as one record, and the events handlers emit.

    The submission tables are a small heap because the submit handler keeps
    references across its `await`: `boards` holds every per-room submission
    map ever created (a map is an ordered list of slots, as a JavaScript `Map`
    keeps insertion order), `submissions` holds every submission object, and
    `roomSubmissions` points a room at its current board. */
module GameState {
  import opened Common
  import opened Problems
  import opened CodeExecutor

  /** A host-owned room identified by a six-character code. */
  datatype CustomRoom = CustomRoom(
    roomId: RoomId,
    host: SessionId,
    players: seq<SessionId>,
    difficulty: Difficulty,
    createdAt: int)

  /** A session waiting for a quick match. */
  datatype QueueEntry = QueueEntry(socketId: SessionId, difficulty: Difficulty, joinedAt: int)

  /** A submission object; `testResults` stays `None` until it is scored. */
  datatype Submission = Submission(code: string, language: string, testResults: Option<TestResults>, submitTime: int)

  /** One entry of a per-room submission map: the session and the index of
      its submission object. */
  datatype Slot = Slot(session: SessionId, ref: nat)

  datatype State = State(
    waitingQueue: seq<SessionId>,
    userRooms: map<SessionId, RoomId>,
    roomSubmissions: map<RoomId, nat>,
    boards: seq<seq<Slot>>,
    submissions: seq<Submission>,
    roomProblems: map<RoomId, string>,
    customRooms: map<RoomId, CustomRoom>,
    queue: seq<QueueEntry>,
    submissionTimes: map<SessionId, seq<int>>)

  /** The state at server start: every table empty. */
  const Initial := State([], map[], map[], [], [], map[], map[], [], map[])

  // ---- emitted events ----

  /** `socket.emit` / `io.to(id)`, `io.to(room)`, and `socket.to(room)`
      (the room's channel without the sender). */
  datatype Recipient =
    | ToSession(session: SessionId)
    | ToRoom(room: RoomId)
    | ToRoomExcept(room: RoomId, except: SessionId)

  /** The roster payload of `room_created`, `room_joined` and `room_updated`. */
  datatype RoomView = RoomView(roomId: RoomId, host: SessionId, players: seq<SessionId>, difficulty: Difficulty, isReady: bool)

  /** One entry of `reveal_solutions`. */
  datatype Solution = Solution(socketId: SessionId, code: string, language: string, testResults: Option<TestResults>, submitTime: int)

  /** Server-to-client messages; the constructor is the event name. */
  datatype Message =
    | QueueUpdate(position: nat, totalWaiting: nat, estimatedWaitTime: int)
    | MatchFound(roomId: RoomId, opponentId: SessionId, problem: Problem)
    | RoomCreated(view: RoomView)
    | RoomJoined(view: RoomView)
    | RoomUpdated(view: RoomView)
    | RoomError(error: string)
    | RoomMatchStart(problem: Problem)
    | RunResults(results: TestResults)
    | TestingCode(note: string)
    | OpponentSubmitted
    | TestResultsReady(results: TestResults)
    | SubmissionError(error: string)
    | RevealSolutions(solutions: seq<Solution>, winner: SessionId, problem: Problem)
    | OpponentLeft

  datatype Event = Event(to: Recipient, message: Message)

  /** What a handler leaves behind: the new state and what it emitted, in order. */
  datatype Outcome = Outcome(state: State, events: seq<Event>)

  // ---- shared state operations ----

  /** `userRooms.get(id)` read through JavaScript truthiness. */
  function RoomOf(s: State, id: SessionId): (r: Option<RoomId>)
    ensures r.Some? <==> id in s.userRooms && s.userRooms[id] != ""
    ensures r.Some? ==> r.value == s.userRooms[id]
  {
    if id in s.userRooms && s.userRooms[id] != "" then Some(s.userRooms[id]) else None
  }

  /** No session holds two slots of one submission map. */
  predicate DistinctSessions(board: seq<Slot>) {
    forall i, j :: 0 <= i < j < |board| ==> board[i].session != board[j].session
  }

  /** Every reference resolves: rooms point at existing maps, slots at
      existing submission objects, and no map has two slots for one session. */
  predicate HeapOk(s: State) {
    && (forall r :: r in s.roomSubmissions ==> s.roomSubmissions[r] < |s.boards|)
    && (forall b, k :: 0 <= b < |s.boards| && 0 <= k < |s.boards[b]| ==> s.boards[b][k].ref < |s.submissions|)
    && (forall b :: 0 <= b < |s.boards| ==> DistinctSessions(s.boards[b]))
  }

  /** Every binding names a room (bindings are never the empty string). */
  predicate BindingsNamed(s: State) {
    forall k :: k in s.userRooms ==> s.userRooms[k] != ""
  }

  /** `roomSubmissions.set(roomId, new Map())` and
      `roomProblems.set(roomId, problemId)`: a fresh empty board becomes the
      room's current one; every earlier board stays where it was. */
  function InstallMatch(s: State, roomId: RoomId, problemId: string): (s': State)
    ensures |s'.boards| == |s.boards| + 1 && s'.boards[..|s.boards|] == s.boards
    ensures s'.boards == s.boards + [[]]
    ensures s'.roomSubmissions == s.roomSubmissions[roomId := |s.boards|]
    ensures roomId in s'.roomSubmissions && s'.boards[s'.roomSubmissions[roomId]] == []
    ensures s'.roomProblems == s.roomProblems[roomId := problemId]
    ensures s'.submissions == s.submissions
    ensures s' == s.(roomSubmissions := s'.roomSubmissions, boards := s'.boards, roomProblems := s'.roomProblems)
    ensures HeapOk(s) ==> HeapOk(s')
  {
    s.(roomSubmissions := s.roomSubmissions[roomId := |s.boards|],
       boards := s.boards + [[]],
       roomProblems := s.roomProblems[roomId := problemId])
  }
}

=== FILE: matchmaking.dfy ===
/** The quick-match queue: sessions wait with a difficulty preference, and a
    newcomer is paired with the first compatible entry. Which sockets are
    still connected enters as the set `connected`. */
module Matchmaking {
  import opened Common
  import opened Problems
  import opened GameState

  /** Two preferences can be paired when either is `Any` or they agree. */
  predicate Compatible(a: Difficulty, b: Difficulty) {
    a == Any || b == Any || a == b
  }

  lemma CompatibleSymmetric(a: Difficulty, b: Difficulty)
    ensures Compatible(a, b) <==> Compatible(b, a)
    ensures Compatible(a, b) <==> a == Any || b == Any || a == b
  {
  }

  /** The sessions of the queue, in queue order. */
  function Sessions(q: seq<QueueEntry>): (r: seq<SessionId>)
    ensures |r| == |q|
    ensures forall i {:trigger r[i]} :: 0 <= i < |q| ==> r[i] == q[i].socketId
  {
    if q == [] then [] else [q[0].socketId] + Sessions(q[1..])
  }

  /** No session waits twice. */
  predicate QueueOk(q: seq<QueueEntry>) {
    Distinct(Sessions(q))
  }

  /** `queue.filter(entry => entry.socketId !== id)`. */
  function RemoveSession(q: seq<QueueEntry>, id: SessionId): (r: seq<QueueEntry>)
    ensures |r| <= |q|
    ensures forall e :: e in r <==> e in q && e.socketId != id
    ensures Sessions(r) == RemoveAll(Sessions(q), id)
  {
    if q == [] then []
    else
      assert Sessions(q)[1..] == Sessions(q[1..]);
      if q[0].socketId == id then RemoveSession(q[1..], id)
      else
        var rest := RemoveSession(q[1..], id);
        assert Sessions([q[0]] + rest) == [q[0].socketId] + Sessions(rest);
        [q[0]] + rest
  }

  lemma {:induction false} RemoveSessionAbsent(q: seq<QueueEntry>, id: SessionId)
    requires id !in Sessions(q)
    ensures RemoveSession(q, id) == q
  {
    if q != [] {
      assert Sessions(q)[1..] == Sessions(q[1..]);
      RemoveSessionAbsent(q[1..], id);
    }
  }

  lemma {:induction false} RemoveSessionConcat(a: seq<QueueEntry>, b: seq<QueueEntry>, id: SessionId)
    ensures RemoveSession(a + b, id) == RemoveSession(a, id) + RemoveSession(b, id)
  {
    if a == [] {
      assert a + b == b;
    } else {
      RemoveSessionHead(a, b, id);
      RemoveSessionConcat(a[1..], b, id);
    }
  }

  /** One step of `RemoveSessionConcat`. */
  lemma RemoveSessionHead(a: seq<QueueEntry>, b: seq<QueueEntry>, id: SessionId)
    requires a != []
    ensures RemoveSession(a[1..] + b, id) == RemoveSession(a[1..], id) + RemoveSession(b, id) ==>
              RemoveSession(a + b, id) == RemoveSession(a, id) + RemoveSession(b, id)
  {
    ConcatTail(a, b);
  }

  /** In a duplicate-free queue the session at `i` occurs neither before nor
      after position `i`. */
  lemma AbsentAround(q: seq<QueueEntry>, i: nat)
    requires QueueOk(q) && i < |q|
    ensures q[i].socketId !in Sessions(q[..i])
    ensures q[i].socketId !in Sessions(q[i + 1..])
  {
    var id := q[i].socketId;
    assert Sessions(q)[i] == id;
    var before, after := q[..i], q[i + 1..];
    forall k | 0 <= k < |before| ensures Sessions(before)[k] != id {
      assert Sessions(before)[k] == Sessions(q)[k];
    }
    forall k | 0 <= k < |after| ensures Sessions(after)[k] != id {
      assert Sessions(after)[k] == Sessions(q)[i + 1 + k];
    }
  }

  lemma SplitAt(q: seq<QueueEntry>, i: nat)
    requires i < |q|
    ensures q == q[..i] + ([q[i]] + q[i + 1..])
  {
  }

  /** Dropping a session that occurs only at position `i` removes that one
      entry and keeps every other in order. */
  lemma RemoveOnlyOccurrence(q: seq<QueueEntry>, i: nat)
    requires i < |q|
    requires q[i].socketId !in Sessions(q[..i]) && q[i].socketId !in Sessions(q[i + 1..])
    ensures RemoveSession(q, q[i].socketId) == q[..i] + q[i + 1..]
  {
    var id := q[i].socketId;
    SplitAt(q, i);
    RemoveSessionConcat(q[..i], [q[i]] + q[i + 1..], id);
    RemoveSessionConcat([q[i]], q[i + 1..], id);
    RemoveSessionAbsent(q[..i], id);
    RemoveSessionAbsent(q[i + 1..], id);
  }

  /** In a duplicate-free queue, dropping the session at position `i` removes
      that one entry and keeps every other in order. */
  lemma RemoveSessionAt(q: seq<QueueEntry>, i: nat)
    requires QueueOk(q) && i < |q|
    ensures RemoveSession(q, q[i].socketId) == q[..i] + q[i + 1..]
  {
    AbsentAround(q, i);
    RemoveOnlyOccurrence(q, i);
  }

  // ---- tryMatch ----

  /** The first position holding `id`. */
  function FindSession(q: seq<QueueEntry>, id: SessionId): (r: Option<nat>)
    ensures r.None? <==> id !in Sessions(q)
    ensures r.Some? ==> r.value < |q| && q[r.value].socketId == id
                        && forall j :: 0 <= j < r.value ==> q[j].socketId != id
  {
    if q == [] then None
    else if q[0].socketId == id then Some(0)
    else
      assert Sessions(q)[1..] == Sessions(q[1..]);
      match FindSession(q[1..], id)
      case None => None
      case Some(k) => Some(k + 1)
  }

  /** An entry the newcomer may be paired with: another session with a
      compatible preference. */
  predicate Partner(joiner: QueueEntry, e: QueueEntry) {
    e.socketId != joiner.socketId && Compatible(joiner.difficulty, e.difficulty)
  }

  /** `findIndex` of the first partner, looking from position `from` on. */
  function FindPartner(q: seq<QueueEntry>, joiner: QueueEntry, from: nat): (r: Option<nat>)
    requires from <= |q|
    ensures r.None? ==> forall j :: from <= j < |q| ==> !Partner(joiner, q[j])
    ensures r.Some? ==> from <= r.value < |q| && Partner(joiner, q[r.value])
                        && forall j :: from <= j < r.value ==> !Partner(joiner, q[j])
    decreases |q| - from
  {
    if from == |q| then None
    else if Partner(joiner, q[from]) then Some(from)
    else FindPartner(q, joiner, from + 1)
  }

  /** What `tryMatch` decided. */
  datatype Pairing =
    | NoPair
    | Paired(joiner: QueueEntry, opponent: QueueEntry, rest: seq<QueueEntry>)

  /** `tryMatch`: with fewer than two waiting or no partner nothing happens;
      otherwise the newcomer and its first partner leave the queue. */
  function TryMatch(q: seq<QueueEntry>, id: SessionId): (p: Pairing)
    ensures |q| < 2 || id !in Sessions(q) ==> p == NoPair
    ensures p.NoPair? && |q| >= 2 && id in Sessions(q) ==>
              var joiner := q[FindSession(q, id).value];
              forall j :: 0 <= j < |q| ==> !Partner(joiner, q[j])
    ensures p.Paired? ==>
              && |q| >= 2 && id in Sessions(q)
              && p.joiner == q[FindSession(q, id).value] && p.joiner.socketId == id
              && exists i :: 0 <= i < |q| && p.opponent == q[i] && Partner(p.joiner, q[i])
                             && forall j :: 0 <= j < i ==> !Partner(p.joiner, q[j])
    ensures p.Paired? ==> p.rest == RemoveSession(RemoveSession(q, id), p.opponent.socketId)
  {
    if |q| < 2 then NoPair
    else
      match FindSession(q, id)
      case None => NoPair
      case Some(k) =>
        var joiner := q[k];
        match FindPartner(q, joiner, 0)
        case None => NoPair
        case Some(i) =>
          var opponent := q[i];
          Paired(joiner, opponent, RemoveSession(RemoveSession(q, id), opponent.socketId))
  }

  /** A newcomer appended to a duplicate-free queue was not waiting before,
      and the queue before it was duplicate-free. */
  lemma AppendedIsNew(q: seq<QueueEntry>, e: QueueEntry)
    requires QueueOk(q + [e])
    ensures QueueOk(q) && e.socketId !in Sessions(q)
  {
    var q1 := q + [e];
    assert Sessions(q1)[|q|] == e.socketId;
    forall k | 0 <= k < |q| ensures Sessions(q)[k] == Sessions(q1)[k] && Sessions(q)[k] != e.socketId {
      assert q1[k] == q[k];
    }
  }

  /** Dropping the newcomer again gives back the queue it joined. */
  lemma DropAppended(q: seq<QueueEntry>, e: QueueEntry)
    requires e.socketId !in Sessions(q)
    ensures RemoveSession(q + [e], e.socketId) == q
  {
    RemoveSessionConcat(q, [e], e.socketId);
    RemoveSessionAbsent(q, e.socketId);
    assert RemoveSession([e], e.socketId) == [];
  }

  /** The newcomer is found at the end of the queue. */
  lemma {:induction false} FoundLast(q: seq<QueueEntry>, e: QueueEntry)
    requires e.socketId !in Sessions(q)
    ensures FindSession(q + [e], e.socketId) == Some(|q|)
  {
    if q != [] {
      assert Sessions(q)[0] == q[0].socketId;
      assert Sessions(q)[1..] == Sessions(q[1..]);
      assert (q + [e])[1..] == q[1..] + [e];
      FoundLast(q[1..], e);
    }
  }

  /** After a newcomer is appended to a duplicate-free queue, a pairing removes
      exactly the newcomer and its partner and keeps the rest in order. */
  lemma PairingRemovesExactlyTwo(q: seq<QueueEntry>, e: QueueEntry)
    requires QueueOk(q + [e])
    ensures var p := TryMatch(q + [e], e.socketId);
            p.Paired? ==>
              && p.joiner == e
              && exists i :: 0 <= i < |q| && p.opponent == q[i] && p.rest == q[..i] + q[i + 1..]
  {
    var q1 := q + [e];
    var p := TryMatch(q1, e.socketId);
    if p.Paired? {
      AppendedIsNew(q, e);
      FoundLast(q, e);
      var i :| 0 <= i < |q1| && p.opponent == q1[i] && Partner(p.joiner, q1[i])
               && forall j :: 0 <= j < i ==> !Partner(p.joiner, q1[j]);
      assert i < |q| && q[i] == q1[i];
      DropAppended(q, e);
      RemoveSessionAt(q, i);
    }
  }

  // ---- queue updates ----

  /** `Math.max(10, 30 - index * 5)` seconds. */
  function EstimatedWait(index: nat): (w: int)
    ensures 10 <= w <= 30
    ensures w == 30 - 5 * index || (w == 10 && 30 - 5 * index < 10)
  {
    if 30 - 5 * index > 10 then 30 - 5 * index else 10
  }

  /** The estimate never grows further back in the queue. */
  lemma EstimatedWaitNonIncreasing(i: nat, j: nat)
    requires i <= j
    ensures EstimatedWait(j) <= EstimatedWait(i)
  {
  }

  /** The `queue_update` payload for the entry at `index`. */
  function UpdateAt(q: seq<QueueEntry>, index: nat): Message {
    QueueUpdate(index + 1, |q|, EstimatedWait(index))
  }

  /** `broadcastQueueUpdate` from position `from` on: each connected entry is
      told its position, the queue length and its wait estimate. */
  function QueueUpdatesFrom(q: seq<QueueEntry>, connected: set<SessionId>, from: nat): (r: seq<Event>)
    requires from <= |q|
    ensures |r| <= |q| - from
    ensures forall k :: from <= k < |q| && q[k].socketId in connected ==>
              Event(ToSession(q[k].socketId), UpdateAt(q, k)) in r
    ensures forall e :: e in r ==> e.to.ToSession? && e.to.session in connected && e.message.QueueUpdate?
                                   && e.message.totalWaiting == |q|
                                   && exists k :: from <= k < |q| && e == Event(ToSession(q[k].socketId), UpdateAt(q, k))
    ensures (forall k :: from <= k < |q| ==> q[k].socketId in connected) ==> |r| == |q| - from
    ensures RisingPositions(r, from)
    decreases |q| - from
  {
    if from == |q| then []
    else
      var rest := QueueUpdatesFrom(q, connected, from + 1);
      var e := q[from];
      if e.socketId in connected then
        PrependRising(Event(ToSession(e.socketId), UpdateAt(q, from)), rest, from);
        [Event(ToSession(e.socketId), UpdateAt(q, from))] + rest
      else rest
  }

  /** Queue updates in strictly increasing position order, all past `from`:
      so no position is told twice. */
  predicate RisingPositions(r: seq<Event>, from: nat) {
    && (forall i :: 0 <= i < |r| ==> r[i].message.QueueUpdate? && from < r[i].message.position)
    && (forall i, j :: 0 <= i < j < |r| ==> r[i].message.position < r[j].message.position)
  }

  /** The update for position `from + 1` can go in front of later ones. */
  lemma PrependRising(e: Event, rest: seq<Event>, from: nat)
    requires RisingPositions(rest, from + 1)
    requires e.message.QueueUpdate? && e.message.position == from + 1
    ensures RisingPositions([e] + rest, from)
  {
    var r := [e] + rest;
    forall i | 0 < i < |r| ensures r[i] == rest[i - 1] {}
  }

  function QueueUpdates(q: seq<QueueEntry>, connected: set<SessionId>): seq<Event> {
    QueueUpdatesFrom(q, connected, 0)
  }

  // ---- createMatch ----

  /** The room id of a quick match. */
  function MatchRoom(p1: SessionId, p2: SessionId): RoomId {
    "room_" + p1 + "_" + p2
  }

  /** `createMatch`: nothing when either socket is gone; otherwise both are
      bound to the match room, the room gets an empty submission map and a
      problem picked by `difficulty`, and each player is told the other's id. */
  function CreateMatch(s: State, p1: SessionId, p2: SessionId, difficulty: Difficulty, connected: set<SessionId>, draw: nat): (o: Outcome)
    ensures HeapOk(s) ==> HeapOk(o.state)
    ensures BindingsNamed(s) ==> BindingsNamed(o.state)
    ensures |s.boards| <= |o.state.boards|
    ensures p1 !in connected || p2 !in connected ==> o == Outcome(s, [])
    ensures p1 in connected && p2 in connected ==>
              var roomId := MatchRoom(p1, p2);
              var problem := PickProblem(difficulty, draw);
              && o.state.userRooms == s.userRooms[p1 := roomId][p2 := roomId]
              && roomId in o.state.roomSubmissions && o.state.roomSubmissions[roomId] < |o.state.boards|
              && o.state.boards[o.state.roomSubmissions[roomId]] == []
              && o.state.roomProblems == s.roomProblems[roomId := problem.id]
              && o.state.customRooms == s.customRooms && o.state.queue == s.queue
              && o.state.submissions == s.submissions
              && o.state == s.(userRooms := s.userRooms[p1 := roomId][p2 := roomId],
                               roomSubmissions := s.roomSubmissions[roomId := |s.boards|],
                               boards := s.boards + [[]],
                               roomProblems := s.roomProblems[roomId := problem.id])
              && o.events == [Event(ToSession(p1), MatchFound(roomId, p2, problem)),
                              Event(ToSession(p2), MatchFound(roomId, p1, problem))]
  {
    if p1 !in connected || p2 !in connected then Outcome(s, [])
    else
      var roomId := MatchRoom(p1, p2);
      var problem := PickProblem(difficulty, draw);
      var s1 := s.(userRooms := s.userRooms[p1 := roomId][p2 := roomId]);
      Outcome(
        InstallMatch(s1, roomId, problem.id),
        [Event(ToSession(p1), MatchFound(roomId, p2, problem)),
         Event(ToSession(p2), MatchFound(roomId, p1, problem))])
  }

  /** Each `match_found` names the recipient's opponent, never the recipient. */
  lemma MatchFoundNamesTheOpponent(s: State, p1: SessionId, p2: SessionId, difficulty: Difficulty, connected: set<SessionId>, draw: nat)
    requires p1 != p2
    ensures forall e :: e in CreateMatch(s, p1, p2, difficulty, connected, draw).events ==>
              && e.to.ToSession? && e.message.MatchFound?
              && e.message.opponentId != e.to.session
              && {e.message.opponentId, e.to.session} == {p1, p2}
  {
  }

  // ---- handlers ----

  /** `join_queue`: a session already waiting is ignored; otherwise it is
      appended (with `Any` when no preference is sent), a match is attempted,
      and the queue is broadcast — twice when a match was made, since both
      `tryMatch` and the handler broadcast. */
  function JoinQueue(s: State, id: SessionId, difficulty: Option<Difficulty>, now: int, connected: set<SessionId>, draw: nat): (o: Outcome)
    ensures id in Sessions(s.queue) ==> o == Outcome(s, [])
    ensures id !in Sessions(s.queue) ==>
              var q1 := s.queue + [QueueEntry(id, difficulty.GetOr(Any), now)];
              match TryMatch(q1, id)
              case NoPair =>
                o == Outcome(s.(queue := q1), QueueUpdates(q1, connected))
              case Paired(joiner, opponent, rest) =>
                && o.state.queue == rest
                && var m := CreateMatch(s.(queue := rest), id, opponent.socketId, joiner.difficulty, connected, draw);
                   o == Outcome(m.state, m.events + QueueUpdates(rest, connected) + QueueUpdates(rest, connected))
  {
    if id in Sessions(s.queue) then Outcome(s, [])
    else
      var q1 := s.queue + [QueueEntry(id, difficulty.GetOr(Any), now)];
      AfterPairing(s, q1, TryMatch(q1, id), connected, draw)
  }

  /** What `join_queue` does once `tryMatch` has decided. */
  function AfterPairing(s: State, q1: seq<QueueEntry>, p: Pairing, connected: set<SessionId>, draw: nat): Outcome {
    match p
    case NoPair => Outcome(s.(queue := q1), QueueUpdates(q1, connected))
    case Paired(joiner, opponent, rest) =>
      var m := CreateMatch(s.(queue := rest), joiner.socketId, opponent.socketId, joiner.difficulty, connected, draw);
      Outcome(m.state, m.events + QueueUpdates(rest, connected) + QueueUpdates(rest, connected))
  }

  /** Joining touches the submission tables only by installing a match, and
      binds sessions only to match rooms. */
  lemma JoinQueueKeepsHeap(s: State, id: SessionId, difficulty: Option<Difficulty>, now: int, connected: set<SessionId>, draw: nat)
    ensures var o := JoinQueue(s, id, difficulty, now, connected, draw);
            && (HeapOk(s) ==> HeapOk(o.state))
            && (BindingsNamed(s) ==> BindingsNamed(o.state))
            && |s.boards| <= |o.state.boards| && o.state.boards[..|s.boards|] == s.boards
            && o.state.submissions == s.submissions
            && o.state.customRooms == s.customRooms
  {
    if id !in Sessions(s.queue) {
      var q1 := s.queue + [QueueEntry(id, difficulty.GetOr(Any), now)];
      AfterPairingKeepsHeap(s, q1, TryMatch(q1, id), connected, draw);
    }
  }

  lemma AfterPairingKeepsHeap(s: State, q1: seq<QueueEntry>, p: Pairing, connected: set<SessionId>, draw: nat)
    ensures var o := AfterPairing(s, q1, p, connected, draw);
            && (HeapOk(s) ==> HeapOk(o.state))
            && (BindingsNamed(s) ==> BindingsNamed(o.state))
            && |s.boards| <= |o.state.boards| && o.state.boards[..|s.boards|] == s.boards
            && o.state.submissions == s.submissions
            && o.state.customRooms == s.customRooms
  {
    if p.Paired? {
      var m := CreateMatch(s.(queue := p.rest), p.joiner.socketId, p.opponent.socketId, p.joiner.difficulty, connected, draw);
      assert AfterPairing(s, q1, p, connected, draw).state == m.state;
    }
  }

  lemma SessionsAppend(q: seq<QueueEntry>, e: QueueEntry)
    ensures Sessions(q + [e]) == Sessions(q) + [e.socketId]
  {
    assert forall i :: 0 <= i < |q| ==> (q + [e])[i] == q[i];
  }

  /** Joining keeps the queue free of duplicates; a match takes the newcomer
      and one waiting partner out and leaves the others in order; and the
      problem follows the newcomer's preference alone. */
  lemma JoinQueueKeepsQueueOk(s: State, id: SessionId, difficulty: Option<Difficulty>, now: int, connected: set<SessionId>, draw: nat)
    requires QueueOk(s.queue)
    ensures var o := JoinQueue(s, id, difficulty, now, connected, draw);
            && QueueOk(o.state.queue)
            && (id !in Sessions(s.queue) && TryMatch(s.queue + [QueueEntry(id, difficulty.GetOr(Any), now)], id).Paired? ==>
                  exists i :: 0 <= i < |s.queue| && o.state.queue == s.queue[..i] + s.queue[i + 1..])
  {
    if id !in Sessions(s.queue) {
      var e := QueueEntry(id, difficulty.GetOr(Any), now);
      var q1 := s.queue + [e];
      SessionsAppend(s.queue, e);
      assert QueueOk(q1) by {
        forall a, b | 0 <= a < b < |q1| ensures Sessions(q1)[a] != Sessions(q1)[b] {
          if b == |s.queue| {
            assert Sessions(s.queue)[a] in Sessions(s.queue);
          }
        }
      }
      var p := TryMatch(q1, id);
      if p.Paired? {
        PairingRemovesExactlyTwo(s.queue, e);
        RemoveAllDistinct(Sessions(q1), id);
        RemoveAllDistinct(Sessions(RemoveSession(q1, id)), p.opponent.socketId);
      }
    }
  }

  /** `leave_queue`, and the matchmaking part of `disconnect`, which does the
      same: the session's entry goes, then the queue is broadcast. */
  function LeaveQueue(s: State, id: SessionId, connected: set<SessionId>): (o: Outcome)
    ensures o.state == s.(queue := o.state.queue)
    ensures forall e :: e in o.state.queue <==> e in s.queue && e.socketId != id
    ensures id !in Sessions(o.state.queue)
    ensures o.events == QueueUpdates(o.state.queue, connected)
  {
    var q := RemoveSession(s.queue, id);
    Outcome(s.(queue := q), QueueUpdates(q, connected))
  }

  /** Leaving removes only the leaver's entry, keeps the others in order and
      keeps the queue free of duplicates. */
  lemma LeaveQueueKeepsOthers(s: State, id: SessionId, connected: set<SessionId>)
    requires QueueOk(s.queue)
    ensures var q := LeaveQueue(s, id, connected).state.queue;
            && QueueOk(q)
            && (id !in Sessions(s.queue) ==> q == s.queue)
            && (forall i :: 0 <= i < |s.queue| && s.queue[i].socketId == id ==> q == s.queue[..i] + s.queue[i + 1..])
  {
    RemoveAllDistinct(Sessions(s.queue), id);
    if id !in Sessions(s.queue) {
      RemoveSessionAbsent(s.queue, id);
    }
    forall i | 0 <= i < |s.queue| && s.queue[i].socketId == id
      ensures RemoveSession(s.queue, id) == s.queue[..i] + s.queue[i + 1..]
    {
      RemoveSessionAt(s.queue, i);
    }
  }
}

=== FILE: problems.dfy ===
/** The problem catalogue and the three ways handlers pick a problem from it.
    `Math.random()` enters as a `draw`; the index it selects is the draw
    reduced modulo the number of candidates, so every index is reachable. */
module Problems {
  import opened Common

  datatype TestCase = TestCase(input: string, expectedOutput: string, isHidden: bool)

  /** The parts of a problem the server's logic reads; the statement text,
      examples, constraints and starter code are display-only. */
  datatype Problem = Problem(id: string, title: string, difficulty: Difficulty, testCases: seq<TestCase>)

  const TwoSum := Problem(
    "two-sum", "Two Sum", Easy,
    [TestCase("[2,7,11,15]\n9", "[0,1]", false),
     TestCase("[3,2,4]\n6", "[1,2]", true)])

  /** The catalogue the server ships with. */
  const Catalogue: seq<Problem> := [TwoSum]

  /** A uniformly drawn problem; the catalogue must not be empty. */
  function GetRandomProblem(problems: seq<Problem>, draw: nat): (p: Problem)
    requires |problems| > 0
    ensures p in problems
  {
    problems[draw % |problems|]
  }

  /** Every problem of the catalogue can be drawn. */
  lemma RandomProblemReachesAll(problems: seq<Problem>, i: nat)
    requires i < |problems|
    ensures GetRandomProblem(problems, i) == problems[i]
  {
  }

  /** `problems.find(p => p.id === id)`: the first problem with that id. */
  function GetProblemById(problems: seq<Problem>, id: string): (r: Option<Problem>)
    ensures r.None? <==> forall p :: p in problems ==> p.id != id
    ensures r.Some? ==> r.value.id == id && r.value in problems
    ensures r.Some? ==> exists i :: 0 <= i < |problems| && problems[i] == r.value
                                  && forall j :: 0 <= j < i ==> problems[j].id != id
  {
    if problems == [] then None
    else if problems[0].id == id then Some(problems[0])
    else
      var r := GetProblemById(problems[1..], id);
      assert forall p :: p in problems[1..] ==> p in problems;
      if r.Some? then
        var i :| 0 <= i < |problems[1..]| && problems[1..][i] == r.value
                 && forall j :: 0 <= j < i ==> problems[1..][j].id != id;
        assert problems[i + 1] == r.value;
        r
      else r
  }

  /** The problems of one difficulty, in catalogue order. */
  function OfDifficulty(problems: seq<Problem>, difficulty: Difficulty): (r: seq<Problem>)
    ensures forall p :: p in r <==> p in problems && p.difficulty == difficulty
  {
    if problems == [] then []
    else if problems[0].difficulty == difficulty then [problems[0]] + OfDifficulty(problems[1..], difficulty)
    else OfDifficulty(problems[1..], difficulty)
  }

  /** A random problem of the requested difficulty, falling back to the first
      problem of the catalogue when there is none of that difficulty. */
  function GetProblemByDifficulty(problems: seq<Problem>, difficulty: Difficulty, draw: nat): (p: Problem)
    requires |problems| > 0
    ensures p in problems
    ensures (exists q :: q in problems && q.difficulty == difficulty) ==> p.difficulty == difficulty
    ensures (forall q :: q in problems ==> q.difficulty != difficulty) ==> p == problems[0]
  {
    var filtered := OfDifficulty(problems, difficulty);
    if |filtered| > 0 then filtered[draw % |filtered|] else problems[0]
  }

  /** How both ways of starting a match pick the problem: any problem for an
      `Any` preference, otherwise one of the preferred difficulty. */
  function PickProblem(difficulty: Difficulty, draw: nat): (p: Problem)
    ensures p in Catalogue
    ensures difficulty == Any ==> p == GetRandomProblem(Catalogue, draw)
    ensures difficulty != Any && (exists q :: q in Catalogue && q.difficulty == difficulty) ==> p.difficulty == difficulty
  {
    if difficulty == Any then GetRandomProblem(Catalogue, draw)
    else GetProblemByDifficulty(Catalogue, difficulty, draw)
  }

  /** With the shipped catalogue every preference resolves to Two Sum: the
      only problem is easy, and the other difficulties fall back to it. */
  lemma CatalogueResolvesToTwoSum(difficulty: Difficulty, draw: nat)
    ensures GetProblemByDifficulty(Catalogue, difficulty, draw) == TwoSum
    ensures GetRandomProblem(Catalogue, draw) == TwoSum
    ensures GetProblemById(Catalogue, TwoSum.id) == Some(TwoSum)
  {
  }
}

=== FILE: rate_limiter.dfy ===
/** The submission rate limiter: a sliding window of accepted submission
    times per session. The clock reading `now` is a parameter. */
module RateLimiter {
  import opened Common

  /** The window length in milliseconds. */
  const Window := 60000
  /** The number of submissions admitted within one window. */
  const MaxPerWindow := 5

  /** Stored timestamps per session (`submissionCounts`). */
  type SubmissionLog = map<SessionId, seq<int>>

  /** `times.filter(time => now - time < 60000)`. */
  function Recent(times: seq<int>, now: int): (r: seq<int>)
    ensures |r| <= |times|
    ensures forall t :: t in r <==> t in times && now - t < Window
  {
    if times == [] then []
    else (if now - times[0] < Window then [times[0]] else []) + Recent(times[1..], now)
  }

  /** `submissionCounts.get(id) || []`. */
  function History(log: SubmissionLog, id: SessionId): seq<int> {
    if id in log then log[id] else []
  }

  datatype Decision = Decision(admitted: bool, log: SubmissionLog)

  /** `canSubmit`: refuse when five recent submissions remain; otherwise
      record the recent ones plus `now` for this session alone. */
  function CanSubmit(log: SubmissionLog, id: SessionId, now: int): (d: Decision)
    ensures !d.admitted <==> |Recent(History(log, id), now)| >= MaxPerWindow
    ensures !d.admitted ==> d.log == log
    ensures d.admitted ==> id in d.log && d.log[id] == Recent(History(log, id), now) + [now]
    ensures d.admitted ==> |d.log[id]| <= MaxPerWindow
    ensures forall k :: k != id ==> (k in d.log <==> k in log)
    ensures forall k :: k != id && k in log ==> d.log[k] == log[k]
  {
    var recent := Recent(History(log, id), now);
    if |recent| >= MaxPerWindow then Decision(false, log)
    else Decision(true, log[id := recent + [now]])
  }

  // ---- at most five admissions in any window ----

  /** Clock readings that never go backwards. */
  predicate NonDecreasing(s: seq<int>) {
    |s| <= 1 || (s[0] <= s[1] && NonDecreasing(s[1..]))
  }

  /** The admitted times, appended to `admitted`, when one session calls
      at the clock readings `times`. */
  function Replay(admitted: seq<int>, log: SubmissionLog, id: SessionId, times: seq<int>): (r: seq<int>)
    ensures |admitted| <= |r| <= |admitted| + |times|
    decreases |times|
  {
    if times == [] then admitted
    else
      var d := CanSubmit(log, id, times[0]);
      Replay(if d.admitted then admitted + [times[0]] else admitted, d.log, id, times[1..])
  }

  /** How many of `s` fall in the window `[lo, lo + Window)`. */
  function CountIn(s: seq<int>, lo: int): nat {
    if s == [] then 0
    else CountIn(s[..|s| - 1], lo) + (if lo <= s[|s| - 1] < lo + Window then 1 else 0)
  }

  /** The admitted times are in order, and each had fewer than five admitted
      predecessors within the window that ends at it. */
  predicate Spaced(admitted: seq<int>) {
    admitted == [] ||
      var pre := admitted[..|admitted| - 1];
      var x := admitted[|admitted| - 1];
      && Spaced(pre)
      && (pre == [] || pre[|pre| - 1] <= x)
      && |Recent(pre, x)| < MaxPerWindow
  }

  /** No admitted time is later than `last`. */
  predicate EndsBy(admitted: seq<int>, last: int) {
    admitted == [] || admitted[|admitted| - 1] <= last
  }

  lemma {:induction false} RecentConcat(a: seq<int>, b: seq<int>, now: int)
    ensures Recent(a + b, now) == Recent(a, now) + Recent(b, now)
  {
    if a == [] {
      assert a + b == b;
    } else {
      assert (a + b)[1..] == a[1..] + b;
      RecentConcat(a[1..], b, now);
    }
  }

  /** Filtering at an earlier clock reading and then at a later one is the
      same as filtering at the later one. */
  lemma {:induction false} RecentLater(s: seq<int>, last: int, now: int)
    requires last <= now
    ensures Recent(Recent(s, last), now) == Recent(s, now)
  {
    if s != [] {
      RecentLater(s[1..], last, now);
      var head := if last - s[0] < Window then [s[0]] else [];
      RecentConcat(head, Recent(s[1..], last), now);
    }
  }

  /** An admission at `now` extends a spaced history with `now`, and the
      stored list (the recent times plus `now`) still agrees with it. */
  lemma {:induction false} AdmittedStep(stored: seq<int>, hist: seq<int>, last: int, now: int)
    requires last <= now
    requires Spaced(hist) && EndsBy(hist, last)
    requires Recent(stored, now) == Recent(hist, now)
    requires |Recent(stored, now)| < MaxPerWindow
    ensures Spaced(hist + [now]) && EndsBy(hist + [now], now)
    ensures Recent(Recent(stored, now) + [now], now) == Recent(hist + [now], now)
  {
    var hist' := hist + [now];
    assert hist'[..|hist'| - 1] == hist && hist'[|hist'| - 1] == now;
    assert Recent([now], now) == [now];
    RecentConcat(Recent(stored, now), [now], now);
    RecentLater(stored, now, now);
    RecentConcat(hist, [now], now);
  }

  /** One call at `now`, made while the stored list and the admitted history
      agree on the window seen from `last <= now`: afterwards they agree on the
      window seen from `now`, and the history (extended when admitted) stays
      spaced. */
  lemma {:induction false} StepKeepsAgreement(log: SubmissionLog, id: SessionId, hist: seq<int>, last: int, now: int)
    requires last <= now
    requires Spaced(hist) && EndsBy(hist, last)
    requires Recent(History(log, id), last) == Recent(hist, last)
    ensures var d := CanSubmit(log, id, now);
            var hist' := if d.admitted then hist + [now] else hist;
            && Spaced(hist') && EndsBy(hist', now)
            && Recent(History(d.log, id), now) == Recent(hist', now)
  {
    var stored := History(log, id);
    var d := CanSubmit(log, id, now);
    RecentLater(stored, last, now);
    RecentLater(hist, last, now);
    assert Recent(stored, now) == Recent(hist, now);
    if d.admitted {
      assert History(d.log, id) == Recent(stored, now) + [now];
      AdmittedStep(stored, hist, last, now);
    } else {
      assert History(d.log, id) == stored;
    }
  }

  /** Replaying from a log that agrees with the admitted history on the
      recent window keeps the history spaced. */
  lemma {:induction false} ReplayKeepsSpacing(log: SubmissionLog, id: SessionId, times: seq<int>, hist: seq<int>, last: int)
    requires NonDecreasing(times) && (times != [] ==> last <= times[0])
    requires Spaced(hist) && EndsBy(hist, last)
    requires Recent(History(log, id), last) == Recent(hist, last)
    ensures Spaced(Replay(hist, log, id, times))
    decreases |times|
  {
    if times != [] {
      var now := times[0];
      var d := CanSubmit(log, id, now);
      var rest := times[1..];
      assert NonDecreasing(rest) && (rest != [] ==> now <= rest[0]);
      StepKeepsAgreement(log, id, hist, last, now);
      ReplayKeepsSpacing(d.log, id, rest, if d.admitted then hist + [now] else hist, now);
    }
  }

  /** Everything at or before `x` that lies in a window containing `x` is
      recent as seen from `x`. */
  lemma {:induction false} WindowWithinRecent(s: seq<int>, lo: int, x: int)
    requires Spaced(s) && EndsBy(s, x)
    requires x < lo + Window
    ensures CountIn(s, lo) <= |Recent(s, x)|
  {
    if s != [] {
      var pre := s[..|s| - 1];
      var t := s[|s| - 1];
      assert s == pre + [t];
      WindowWithinRecent(pre, lo, x);
      RecentConcat(pre, [t], x);
    }
  }

  lemma {:induction false} SpacedWindow(admitted: seq<int>, lo: int)
    requires Spaced(admitted)
    ensures CountIn(admitted, lo) <= MaxPerWindow
  {
    if admitted != [] {
      var pre := admitted[..|admitted| - 1];
      var x := admitted[|admitted| - 1];
      SpacedWindow(pre, lo);
      if lo <= x < lo + Window {
        WindowWithinRecent(pre, lo, x);
      }
    }
  }

  /** With a clock that never runs backwards, a fresh session is admitted at
      most five times within any 60-second window. */
  lemma AtMostFivePerWindow(log: SubmissionLog, id: SessionId, times: seq<int>, lo: int)
    requires id !in log
    requires NonDecreasing(times)
    ensures CountIn(Replay([], log, id, times), lo) <= MaxPerWindow
  {
    var last := if times == [] then 0 else times[0];
    ReplayKeepsSpacing(log, id, times, [], last);
    SpacedWindow(Replay([], log, id, times), lo);
  }
}

=== FILE: rooms.dfy ===
/** The custom-room registry: host-owned rooms of at most two players,
    identified by six-character codes, created, joined, left, started and
    swept. `Math.random()` enters as draws, `Date.now()` as `now`, and the
    order in which `Map.forEach` visits the rooms as an explicit enumeration. */
module Rooms {
  import opened Common
  import opened Validation
  import opened Problems
  import opened GameState

  const CodeAlphabet := "ABCDEFGHIJKLMNOPQRSTUVWXYZ0123456789"
  const CodeLength := 6

  /** Rooms older than an hour are swept. */
  const StaleAfter := 3600000

  const InvalidCodeFormat := "Invalid room code format"
  const RoomNotFound := "Room not found"
  const RoomFull := "Room is full"
  const AlreadyInRoom := "You are already in this room"
  const OnlyHostCanStart := "Only host can start the match"
  const NeedTwoPlayers := "Need 2 players to start"

  // ---- the registry invariant ----

  /** A room is stored under its own code, holds one or two distinct players,
      and is hosted by one of them. */
  predicate RoomOk(key: RoomId, room: CustomRoom) {
    && room.roomId == key
    && 1 <= |room.players| <= 2
    && Distinct(room.players)
    && room.host in room.players
  }

  predicate RegistryOk(rooms: map<RoomId, CustomRoom>) {
    forall k :: k in rooms ==> RoomOk(k, rooms[k])
  }

  function View(room: CustomRoom, isReady: bool): RoomView {
    RoomView(room.roomId, room.host, room.players, room.difficulty, isReady)
  }

  // ---- room codes ----

  /** The character a draw selects: `chars.charAt(Math.floor(Math.random() * 36))`. */
  function CodeChar(draw: nat): (c: char)
    ensures IsCodeChar(c)
  {
    CodeAlphabet[draw % |CodeAlphabet|]
  }

  /** The draw that selects a given code character. */
  function DrawFor(c: char): (d: nat)
    requires IsCodeChar(c)
    ensures CodeChar(d) == c
  {
    if 'A' <= c <= 'Z' then c as int - 'A' as int else 26 + (c as int - '0' as int)
  }

  /** `generateRoomCode`: six characters per attempt, drawn again while the
      code names an active room. The source retries without bound; here the
      attempts are those the draws supply, and `None` means they ran out. */
  function GenerateRoomCode(rooms: map<RoomId, CustomRoom>, draws: seq<nat>): (r: Option<RoomId>)
    ensures r.Some? ==> |r.value| == CodeLength && ValidateRoomCode(r.value)
    ensures r.Some? ==> r.value !in rooms
    ensures |draws| >= CodeLength && Attempt(draws) !in rooms ==> r == Some(Attempt(draws))
    decreases |draws|
  {
    if |draws| < CodeLength then None
    else
      var code := Attempt(draws);
      if code in rooms then GenerateRoomCode(rooms, draws[CodeLength..]) else Some(code)
  }

  /** The code the attempt numbered `n` (from 0) spells. */
  function AttemptAt(draws: seq<nat>, n: nat): RoomId
    requires CodeLength * (n + 1) <= |draws|
  {
    Attempt(draws[CodeLength * n..])
  }

  /** The generator returns the first attempt that names no active room, and
      nothing exactly when every attempt the draws supply collides. */
  lemma {:induction false} GenerateRoomCodeFirstFree(rooms: map<RoomId, CustomRoom>, draws: seq<nat>)
    ensures var r := GenerateRoomCode(rooms, draws);
            && (r.None? <==> forall n: nat :: CodeLength * (n + 1) <= |draws| ==> AttemptAt(draws, n) in rooms)
            && (r.Some? ==> exists n: nat :: && CodeLength * (n + 1) <= |draws| && r.value == AttemptAt(draws, n)
                                             && forall m: nat :: m < n ==> AttemptAt(draws, m) in rooms)
    decreases |draws|
  {
    if |draws| >= CodeLength {
      assert draws[CodeLength * 0..] == draws;
      var tail := draws[CodeLength..];
      forall n: nat | CodeLength * (n + 1) <= |tail|
        ensures AttemptAt(tail, n) == AttemptAt(draws, n + 1)
      {
        assert tail[CodeLength * n..] == draws[CodeLength * (n + 1)..];
      }
      if Attempt(draws) in rooms {
        GenerateRoomCodeFirstFree(rooms, tail);
        var r := GenerateRoomCode(rooms, tail);
        assert GenerateRoomCode(rooms, draws) == r;
        if r.Some? {
          var n: nat :| && CodeLength * (n + 1) <= |tail| && r.value == AttemptAt(tail, n)
                        && forall m: nat :: m < n ==> AttemptAt(tail, m) in rooms;
          forall m: nat | m < n + 1 ensures AttemptAt(draws, m) in rooms {
            if m > 0 {
              assert AttemptAt(draws, m) == AttemptAt(tail, m - 1);
            }
          }
          assert AttemptAt(draws, n + 1) == r.value && r.value !in rooms;
        } else {
          forall n: nat | CodeLength * (n + 1) <= |draws| ensures AttemptAt(draws, n) in rooms {
            if n > 0 {
              assert AttemptAt(draws, n) == AttemptAt(tail, n - 1);
            }
          }
        }
      } else {
        assert AttemptAt(draws, 0) == Attempt(draws);
      }
    }
  }

  /** The code one attempt of six draws spells. */
  function Attempt(draws: seq<nat>): (code: RoomId)
    requires |draws| >= CodeLength
    ensures |code| == CodeLength && forall i :: 0 <= i < CodeLength ==> code[i] == CodeChar(draws[i])
  {
    seq(CodeLength, i requires 0 <= i < CodeLength => CodeChar(draws[i]))
  }

  /** Every well-formed code that no active room holds can be generated:
      the generator is not biased away from any free code. */
  lemma EveryFreeCodeCanBeGenerated(rooms: map<RoomId, CustomRoom>, code: RoomId)
    requires ValidateRoomCode(code) && code !in rooms
    ensures var draws := seq(CodeLength, i requires 0 <= i < CodeLength => DrawFor(code[i]));
            GenerateRoomCode(rooms, draws) == Some(code)
  {
    var draws := seq(CodeLength, i requires 0 <= i < CodeLength => DrawFor(code[i]));
    assert Attempt(draws) == code;
  }

  // ---- create_room ----

  /** `create_room`: a fresh code, the creator as host and only player, and
      the creator bound to the code. */
  function CreateRoom(s: State, id: SessionId, difficulty: Difficulty, now: int, draws: seq<nat>): (o: Outcome)
    ensures GenerateRoomCode(s.customRooms, draws).None? ==> o == Outcome(s, [])
    ensures GenerateRoomCode(s.customRooms, draws).Some? ==>
              var code := GenerateRoomCode(s.customRooms, draws).value;
              && code !in s.customRooms && code in o.state.customRooms
              && var room := o.state.customRooms[code];
              && room.host == id && room.players == [id] && room.difficulty == difficulty && room.createdAt == now
              && o.state.customRooms - {code} == s.customRooms
              && o.state.userRooms == s.userRooms[id := code]
              && o.state == s.(customRooms := o.state.customRooms, userRooms := o.state.userRooms)
              && o.events == [Event(ToSession(id), RoomCreated(RoomView(code, id, [id], difficulty, false)))]
  {
    match GenerateRoomCode(s.customRooms, draws)
    case None => Outcome(s, [])
    case Some(code) =>
      var room := CustomRoom(code, id, [id], difficulty, now);
      assert s.customRooms[code := room] - {code} == s.customRooms;
      Outcome(
        s.(customRooms := s.customRooms[code := room], userRooms := s.userRooms[id := code]),
        [Event(ToSession(id), RoomCreated(View(room, false)))])
  }

  lemma CreateRoomKeepsRegistry(s: State, id: SessionId, difficulty: Difficulty, now: int, draws: seq<nat>)
    requires RegistryOk(s.customRooms)
    ensures RegistryOk(CreateRoom(s, id, difficulty, now, draws).state.customRooms)
  {
  }

  // ---- join_room ----

  /** `join_room`: format, existence, capacity and membership are checked in
      that order, and every refusal leaves the state as it was. */
  function JoinRoom(s: State, id: SessionId, roomCode: string): (o: Outcome)
    ensures !ValidateRoomCode(roomCode) ==> o == Outcome(s, [Event(ToSession(id), RoomError(InvalidCodeFormat))])
    ensures ValidateRoomCode(roomCode) && roomCode !in s.customRooms ==>
              o == Outcome(s, [Event(ToSession(id), RoomError(RoomNotFound))])
    ensures ValidateRoomCode(roomCode) && roomCode in s.customRooms && |s.customRooms[roomCode].players| >= 2 ==>
              o == Outcome(s, [Event(ToSession(id), RoomError(RoomFull))])
    ensures ValidateRoomCode(roomCode) && roomCode in s.customRooms && |s.customRooms[roomCode].players| < 2
            && id in s.customRooms[roomCode].players ==>
              o == Outcome(s, [Event(ToSession(id), RoomError(AlreadyInRoom))])
    ensures o.state != s ==> JoinAccepted(s, id, roomCode)
    ensures JoinAccepted(s, id, roomCode) ==>
              var before := s.customRooms[roomCode];
              && roomCode in o.state.customRooms
              && var after := o.state.customRooms[roomCode];
              && after == before.(players := before.players + [id])
              && o.state.customRooms == s.customRooms[roomCode := after]
              && o.state.userRooms == s.userRooms[id := roomCode]
              && o.state == s.(customRooms := o.state.customRooms, userRooms := o.state.userRooms)
              && var view := View(after, |after.players| == 2);
                 o.events == [Event(ToSession(id), RoomJoined(view)), Event(ToRoom(roomCode), RoomUpdated(view))]
  {
    if !ValidateRoomCode(roomCode) then Outcome(s, [Event(ToSession(id), RoomError(InvalidCodeFormat))])
    else if roomCode !in s.customRooms then Outcome(s, [Event(ToSession(id), RoomError(RoomNotFound))])
    else
      var room := s.customRooms[roomCode];
      if |room.players| >= 2 then Outcome(s, [Event(ToSession(id), RoomError(RoomFull))])
      else if id in room.players then Outcome(s, [Event(ToSession(id), RoomError(AlreadyInRoom))])
      else
        var room' := room.(players := room.players + [id]);
        var view := View(room', |room'.players| == 2);
        Outcome(
          s.(customRooms := s.customRooms[roomCode := room'], userRooms := s.userRooms[id := roomCode]),
          [Event(ToSession(id), RoomJoined(view)), Event(ToRoom(roomCode), RoomUpdated(view))])
  }

  /** The conditions under which `join_room` admits the session. */
  predicate JoinAccepted(s: State, id: SessionId, roomCode: string) {
    && ValidateRoomCode(roomCode)
    && roomCode in s.customRooms
    && |s.customRooms[roomCode].players| < 2
    && id !in s.customRooms[roomCode].players
  }

  /** In a well-formed registry a successful join fills the room: the joiner
      is last, the room holds exactly two players, and both payloads report
      it ready. */
  lemma JoinFillsRoom(s: State, id: SessionId, roomCode: string)
    requires RegistryOk(s.customRooms)
    requires JoinAccepted(s, id, roomCode)
    ensures var o := JoinRoom(s, id, roomCode);
            var players := o.state.customRooms[roomCode].players;
            && |players| == 2 && players[1] == id && players[0] == s.customRooms[roomCode].players[0]
            && o.events[0].message.view.isReady && o.events[1].message.view.isReady
            && RegistryOk(o.state.customRooms)
  {
  }

  lemma JoinRoomKeepsRegistry(s: State, id: SessionId, roomCode: string)
    requires RegistryOk(s.customRooms)
    ensures RegistryOk(JoinRoom(s, id, roomCode).state.customRooms)
  {
    if JoinAccepted(s, id, roomCode) {
      JoinFillsRoom(s, id, roomCode);
    }
  }

  // ---- leaving: leave_room and disconnect share this step ----

  /** A session leaves a room: the player list loses it, the room disappears
      when nobody is left, and a departing host hands over to the first
      remaining player. */
  function Depart(room: CustomRoom, id: SessionId): (r: Option<CustomRoom>)
    ensures r.None? <==> RemoveAll(room.players, id) == []
    ensures r.Some? ==> && r.value.players == RemoveAll(room.players, id)
                        && id !in r.value.players
                        && r.value.roomId == room.roomId
                        && r.value.difficulty == room.difficulty
                        && r.value.createdAt == room.createdAt
    ensures r.Some? && room.host != id ==> r.value.host == room.host
    ensures r.Some? && room.host == id ==> r.value.host == r.value.players[0]
  {
    var players := RemoveAll(room.players, id);
    if players == [] then None
    else Some(room.(players := players, host := if room.host == id then players[0] else room.host))
  }

  /** Leaving keeps a room well formed, or deletes it. */
  lemma DepartKeepsRoom(key: RoomId, room: CustomRoom, id: SessionId)
    requires RoomOk(key, room)
    ensures Depart(room, id).Some? ==> RoomOk(key, Depart(room, id).value)
  {
    RemoveAllDistinct(room.players, id);
  }

  /** `leave_room`: an unknown room is ignored; otherwise the session's
      binding is deleted and the room updated by `Depart`, the remaining
      players receiving the new roster. */
  function LeaveRoom(s: State, id: SessionId, roomId: RoomId): (o: Outcome)
    ensures roomId !in s.customRooms ==> o == Outcome(s, [])
    ensures roomId in s.customRooms ==>
              var after := Depart(s.customRooms[roomId], id);
              && o.state.userRooms == s.userRooms - {id}
              && o.state.customRooms - {roomId} == s.customRooms - {roomId}
              && (after.None? ==> roomId !in o.state.customRooms && o.events == [])
              && (after.Some? ==> (&& roomId in o.state.customRooms && o.state.customRooms[roomId] == after.value
                                  && o.events == [Event(ToRoom(roomId), RoomUpdated(View(after.value, false)))]))
              && o.state == s.(customRooms := o.state.customRooms, userRooms := o.state.userRooms)
  {
    if roomId !in s.customRooms then Outcome(s, [])
    else
      var s1 := s.(userRooms := s.userRooms - {id});
      match Depart(s.customRooms[roomId], id)
      case None =>
        Outcome(s1.(customRooms := s.customRooms - {roomId}), [])
      case Some(room') =>
        assert s.customRooms[roomId := room'] - {roomId} == s.customRooms - {roomId};
        Outcome(
          s1.(customRooms := s.customRooms[roomId := room']),
          [Event(ToRoom(roomId), RoomUpdated(View(room', false)))])
  }

  lemma LeaveRoomKeepsRegistry(s: State, id: SessionId, roomId: RoomId)
    requires RegistryOk(s.customRooms)
    ensures RegistryOk(LeaveRoom(s, id, roomId).state.customRooms)
  {
    if roomId in s.customRooms {
      DepartKeepsRoom(roomId, s.customRooms[roomId], id);
    }
  }

  // ---- start_room_match ----

  /** `start_room_match`: only the host of a full room may start it. The room
      then gets an empty submission map and its problem, and leaves the
      registry. */
  function StartRoomMatch(s: State, id: SessionId, roomId: RoomId, draw: nat): (o: Outcome)
    ensures roomId !in s.customRooms ==> o == Outcome(s, [Event(ToSession(id), RoomError(RoomNotFound))])
    ensures roomId in s.customRooms && s.customRooms[roomId].host != id ==>
              o == Outcome(s, [Event(ToSession(id), RoomError(OnlyHostCanStart))])
    ensures roomId in s.customRooms && s.customRooms[roomId].host == id && |s.customRooms[roomId].players| != 2 ==>
              o == Outcome(s, [Event(ToSession(id), RoomError(NeedTwoPlayers))])
    ensures o.state != s ==> roomId in s.customRooms && s.customRooms[roomId].host == id && |s.customRooms[roomId].players| == 2
    ensures roomId in s.customRooms && s.customRooms[roomId].host == id && |s.customRooms[roomId].players| == 2 ==>
              var problem := PickProblem(s.customRooms[roomId].difficulty, draw);
              && roomId !in o.state.customRooms
              && o.state.customRooms == s.customRooms - {roomId}
              && roomId in o.state.roomSubmissions && o.state.roomSubmissions[roomId] < |o.state.boards|
              && o.state.boards[o.state.roomSubmissions[roomId]] == []
              && o.state.roomProblems == s.roomProblems[roomId := problem.id]
              && o.state.userRooms == s.userRooms
              && o.state == s.(customRooms := s.customRooms - {roomId},
                               roomSubmissions := s.roomSubmissions[roomId := |s.boards|],
                               boards := s.boards + [[]],
                               roomProblems := s.roomProblems[roomId := problem.id])
              && o.events == [Event(ToRoom(roomId), RoomMatchStart(problem))]
  {
    if roomId !in s.customRooms then Outcome(s, [Event(ToSession(id), RoomError(RoomNotFound))])
    else
      var room := s.customRooms[roomId];
      if room.host != id then Outcome(s, [Event(ToSession(id), RoomError(OnlyHostCanStart))])
      else if |room.players| != 2 then Outcome(s, [Event(ToSession(id), RoomError(NeedTwoPlayers))])
      else
        var problem := PickProblem(room.difficulty, draw);
        var s1 := InstallMatch(s, roomId, problem.id);
        Outcome(s1.(customRooms := s.customRooms - {roomId}), [Event(ToRoom(roomId), RoomMatchStart(problem))])
  }

  // ---- disconnect ----

  /** What disconnecting does to one room: rooms without the session are
      untouched, the others go through `Depart`. */
  function AfterDisconnect(room: CustomRoom, id: SessionId): Option<CustomRoom> {
    if id in room.players then Depart(room, id) else Some(room)
  }

  /** The `disconnect` handler of the registry: every room, in `order`, loses
      the session; an emptied room is deleted, a surviving one whose roster
      changed is rebroadcast. Rooms outside `order` are not visited. */
  function DisconnectRooms(rooms: map<RoomId, CustomRoom>, id: SessionId, order: seq<RoomId>): (r: (map<RoomId, CustomRoom>, seq<Event>))
    requires Distinct(order)
    ensures forall k :: k in r.0 ==> k in rooms
    ensures forall k :: k in rooms && k !in order ==> k in r.0 && r.0[k] == rooms[k]
    ensures forall k :: k in rooms && k in order ==>
              (k in r.0 <==> AfterDisconnect(rooms[k], id).Some?)
              && (k in r.0 ==> r.0[k] == AfterDisconnect(rooms[k], id).value)
    ensures Rebroadcasts(rooms, id, order, r.0, r.1)
    ensures DistinctRecipients(r.1)
    ensures forall k :: k in order && k in rooms && id in rooms[k].players && k in r.0 ==>
              Event(ToRoom(k), RoomUpdated(View(r.0[k], false))) in r.1
  {
    if order == [] then (rooms, [])
    else
      var k := order[0];
      var rest := DisconnectRooms(rooms, id, order[1..]);
      assert k !in order[1..];
      if k in rooms && id in rooms[k].players then
        match Depart(rooms[k], id)
        case None =>
          RebroadcastsSurvive(rooms, id, order[1..], order, rest.0, rest.1, rest.0 - {k});
          (rest.0 - {k}, rest.1)
        case Some(room') =>
          var e := Event(ToRoom(k), RoomUpdated(View(room', false)));
          RebroadcastsSurvive(rooms, id, order[1..], order, rest.0, rest.1, rest.0[k := room']);
          RebroadcastsAvoid(rooms, id, order[1..], rest.0, rest.1, k);
          PrependRecipient(e, rest.1);
          (rest.0[k := room'], [e] + rest.1)
      else
        RebroadcastsSurvive(rooms, id, order[1..], order, rest.0, rest.1, rest.0);
        rest
  }

  /** Every event is the current roster of a visited room that held the
      session and survives in `after`. */
  predicate Rebroadcasts(rooms: map<RoomId, CustomRoom>, id: SessionId, order: seq<RoomId>,
                         after: map<RoomId, CustomRoom>, events: seq<Event>)
  {
    forall e :: e in events ==>
      exists k :: k in order && k in rooms && id in rooms[k].players && k in after
                  && e == Event(ToRoom(k), RoomUpdated(View(after[k], false)))
  }

  /** No two events go to the same recipient. */
  predicate DistinctRecipients(events: seq<Event>) {
    forall i, j :: 0 <= i < j < |events| ==> events[i].to != events[j].to
  }

  /** A recipient that has no event yet can be put in front. */
  lemma PrependRecipient(e: Event, events: seq<Event>)
    requires DistinctRecipients(events) && forall x :: x in events ==> x.to != e.to
    ensures DistinctRecipients([e] + events)
  {
    forall i, j | 0 <= i < j < |[e] + events| ensures ([e] + events)[i].to != ([e] + events)[j].to {
      assert ([e] + events)[j] == events[j - 1];
      if i > 0 {
        assert ([e] + events)[i] == events[i - 1];
      }
    }
  }

  /** Rebroadcasts for the rooms in `tail` never address a room outside it. */
  lemma RebroadcastsAvoid(rooms: map<RoomId, CustomRoom>, id: SessionId, tail: seq<RoomId>,
                          after: map<RoomId, CustomRoom>, events: seq<Event>, k: RoomId)
    requires Rebroadcasts(rooms, id, tail, after, events) && k !in tail
    ensures forall x :: x in events ==> x.to != ToRoom(k)
  {
  }

  /** Rebroadcasts stay accurate when more rooms are visited and the rooms
      they name are left alone. */
  lemma RebroadcastsSurvive(rooms: map<RoomId, CustomRoom>, id: SessionId, tail: seq<RoomId>, order: seq<RoomId>,
                            after: map<RoomId, CustomRoom>, events: seq<Event>, after': map<RoomId, CustomRoom>)
    requires Rebroadcasts(rooms, id, tail, after, events)
    requires forall k :: k in tail ==> k in order
    requires forall k :: k in tail && k in after ==> k in after' && after'[k] == after[k]
    ensures Rebroadcasts(rooms, id, order, after', events)
  {
    forall e | e in events
      ensures exists k :: k in order && k in rooms && id in rooms[k].players && k in after'
                          && e == Event(ToRoom(k), RoomUpdated(View(after'[k], false)))
    {
      var k :| k in tail && k in rooms && id in rooms[k].players && k in after
               && e == Event(ToRoom(k), RoomUpdated(View(after[k], false)));
      assert after'[k] == after[k];
    }
  }

  /** After a full pass nobody keeps the disconnected session, and every room
      stays well formed. */
  lemma DisconnectRoomsClears(rooms: map<RoomId, CustomRoom>, id: SessionId, order: seq<RoomId>)
    requires RegistryOk(rooms) && IsEnumeration(order, rooms.Keys)
    ensures var r := DisconnectRooms(rooms, id, order).0;
            && RegistryOk(r)
            && (forall k :: k in r ==> id !in r[k].players)
  {
    var r := DisconnectRooms(rooms, id, order).0;
    forall k | k in r
      ensures RoomOk(k, r[k]) && id !in r[k].players
    {
      if id in rooms[k].players {
        DepartKeepsRoom(k, rooms[k], id);
      }
    }
  }

  // ---- the stale-room sweep ----

  predicate IsStale(room: CustomRoom, now: int) {
    now - room.createdAt > StaleAfter
  }

  /** One run of the sweep timer: every room visited in `order` that is
      older than an hour is deleted. */
  function SweepStaleRooms(rooms: map<RoomId, CustomRoom>, now: int, order: seq<RoomId>): (r: map<RoomId, CustomRoom>)
    requires Distinct(order)
    ensures forall k :: k in r <==> k in rooms && (k in order ==> !IsStale(rooms[k], now))
    ensures forall k :: k in r ==> r[k] == rooms[k]
  {
    if order == [] then rooms
    else
      var k := order[0];
      var rest := SweepStaleRooms(rooms, now, order[1..]);
      assert k !in order[1..];
      if k in rooms && IsStale(rooms[k], now) then rest - {k} else rest
  }

  /** A full sweep keeps exactly the rooms that are not stale, unchanged, so
      it keeps the registry well formed. */
  lemma SweepKeepsFreshRooms(rooms: map<RoomId, CustomRoom>, now: int, order: seq<RoomId>)
    requires IsEnumeration(order, rooms.Keys)
    ensures var r := SweepStaleRooms(rooms, now, order);
            && (forall k :: k in r <==> k in rooms && !IsStale(rooms[k], now))
            && (RegistryOk(rooms) ==> RegistryOk(r))
  {
  }
}

=== FILE: server.dfy ===
/** The server as one state machine. Every connected socket runs the
    matchmaking, room, duel and signaling handlers, registered in that order;
    a client event becomes a `Request`, and the world outside the process —
    the clock, random draws, which sockets are still connected, the order in
    which the room table is visited, and the judge — enters as parameters. */
module Server {
  import opened Common
  import opened CodeExecutor
  import opened GameState
  import Rooms
  import Matchmaking
  import DuelHandler
  import Signaling

  /** The client-to-server events. */
  datatype Request =
    | JoinQueue(difficulty: Option<Difficulty>)
    | LeaveQueue
    | CreateRoom(roomDifficulty: Difficulty)
    | JoinRoom(roomCode: string)
    | LeaveRoom(roomId: RoomId)
    | StartRoomMatch(startId: RoomId)
    | RunCode(runCode: string, runLanguage: string)
    | SubmitCode(code: string, language: string)
    | Disconnect

  /** What the outside world supplies to one handler run: the clock, a draw
      for a problem index, draws for room-code characters, the sockets still
      connected, and the order in which the room table is visited. */
  datatype Env = Env(now: int, draw: nat, codeDraws: seq<nat>, connected: set<SessionId>, roomOrder: seq<RoomId>)

  /** A handler suspended at its `await` on the judge. */
  datatype Continuation =
    | Scoring(pending: DuelHandler.Pending)
    | Practice(job: DuelHandler.RunJob)

  /** The invariant of the whole state. */
  predicate Valid(s: State) {
    && Rooms.RegistryOk(s.customRooms)
    && Matchmaking.QueueOk(s.queue)
    && HeapOk(s)
    && BindingsNamed(s)
  }

  /** A continuation can be resumed in `s`. */
  predicate Resumable(s: State, k: Continuation) {
    k.Scoring? ==> DuelHandler.PendingOk(s, k.pending)
  }

  /** The number of judge calls a continuation makes. */
  function JudgeCalls(k: Continuation): nat {
    match k
    case Scoring(p) => |p.problem.testCases|
    case Practice(job) => |job.cases|
  }

  /** `disconnect`: the matchmaking handler, then the room handler, then the
      signaling handler (the duel handler has none). */
  function DisconnectAll(s: State, id: SessionId, env: Env): (o: Outcome)
    requires IsEnumeration(env.roomOrder, s.customRooms.Keys)
    ensures var m := Matchmaking.LeaveQueue(s, id, env.connected);
            var rooms := Rooms.DisconnectRooms(s.customRooms, id, env.roomOrder);
            var g := Signaling.Disconnect(m.state.(customRooms := rooms.0), id);
            o == Outcome(g.state, m.events + rooms.1 + g.events)
  {
    var m := Matchmaking.LeaveQueue(s, id, env.connected);
    var rooms := Rooms.DisconnectRooms(m.state.customRooms, id, env.roomOrder);
    var g := Signaling.Disconnect(m.state.(customRooms := rooms.0), id);
    Outcome(g.state, m.events + rooms.1 + g.events)
  }

  /** One client event, run up to its first `await` (or to the end). */
  function Dispatch(s: State, id: SessionId, req: Request, env: Env): (r: (Outcome, Option<Continuation>))
    requires Valid(s)
    requires req.Disconnect? ==> IsEnumeration(env.roomOrder, s.customRooms.Keys)
    ensures r.1.Some? ==> req.SubmitCode? || req.RunCode?
  {
    match req
    case JoinQueue(difficulty) => (Matchmaking.JoinQueue(s, id, difficulty, env.now, env.connected, env.draw), None)
    case LeaveQueue => (Matchmaking.LeaveQueue(s, id, env.connected), None)
    case CreateRoom(difficulty) => (Rooms.CreateRoom(s, id, difficulty, env.now, env.codeDraws), None)
    case JoinRoom(code) => (Rooms.JoinRoom(s, id, code), None)
    case LeaveRoom(roomId) => (Rooms.LeaveRoom(s, id, roomId), None)
    case StartRoomMatch(roomId) => (Rooms.StartRoomMatch(s, id, roomId, env.draw), None)
    case RunCode(code, language) =>
      var (o, job) := DuelHandler.RunCode(s, id, code, language);
      (o, if job.Some? then Some(Practice(job.value)) else None)
    case SubmitCode(code, language) =>
      var (o, pending) := DuelHandler.SubmitCode(s, id, code, language, env.now);
      (o, if pending.Some? then Some(Scoring(pending.value)) else None)
    case Disconnect => (DisconnectAll(s, id, env), None)
  }

  /** A suspended handler resumes with what the judge returned for each call. */
  function Resume(s: State, k: Continuation, attempts: seq<Attempt>): (o: Outcome)
    requires HeapOk(s) && Resumable(s, k)
    requires |attempts| == JudgeCalls(k)
    ensures k.Practice? ==> o.state == s
    ensures k.Scoring? ==> o.state == s.(submissions := o.state.submissions)
    ensures k.Scoring? ==> |o.state.submissions| == |s.submissions|
                           && forall i :: 0 <= i < |s.submissions| && i != k.pending.entry ==>
                                o.state.submissions[i] == s.submissions[i]
  {
    match k
    case Scoring(p) => DuelHandler.CompleteSubmit(s, p, attempts)
    case Practice(job) => Outcome(s, [DuelHandler.FinishRun(job, attempts)])
  }

  /** One run of the stale-room timer. */
  function Sweep(s: State, env: Env): (s': State)
    requires IsEnumeration(env.roomOrder, s.customRooms.Keys)
    ensures s' == s.(customRooms := s'.customRooms)
    ensures forall k :: k in s'.customRooms <==> k in s.customRooms && !Rooms.IsStale(s.customRooms[k], env.now)
  {
    Rooms.SweepKeepsFreshRooms(s.customRooms, env.now, env.roomOrder);
    s.(customRooms := Rooms.SweepStaleRooms(s.customRooms, env.now, env.roomOrder))
  }

  // ---- the invariant is kept ----

  /** The server starts in a state that satisfies the invariant. */
  lemma InitialValid()
    ensures Valid(Initial)
  {
  }

  /** Steps that leave the submission heap alone or only append to it keep
      every suspended continuation resumable. */
  predicate HeapGrows(s: State, s': State) {
    && |s.boards| <= |s'.boards| && |s.submissions| <= |s'.submissions|
  }

  lemma DispatchKeepsValid(s: State, id: SessionId, req: Request, env: Env)
    requires Valid(s)
    requires req.Disconnect? ==> IsEnumeration(env.roomOrder, s.customRooms.Keys)
    ensures var (o, k) := Dispatch(s, id, req, env);
            && Valid(o.state) && HeapGrows(s, o.state)
            && (k.Some? ==> Resumable(o.state, k.value))
  {
    match req
    case JoinQueue(difficulty) => JoinQueueKeepsValid(s, id, difficulty, env);
    case LeaveQueue => Matchmaking.LeaveQueueKeepsOthers(s, id, env.connected);
    case CreateRoom(difficulty) => CreateRoomKeepsValid(s, id, difficulty, env);
    case JoinRoom(code) => JoinRoomKeepsValid(s, id, code);
    case LeaveRoom(roomId) => LeaveRoomKeepsValid(s, id, roomId);
    case StartRoomMatch(roomId) => StartKeepsValid(s, id, roomId, env);
    case RunCode(code, language) =>
    case SubmitCode(code, language) => DispatchSubmitKeepsValid(s, id, code, language, env);
    case Disconnect => DispatchDisconnectKeepsValid(s, id, env);
  }

  /** The submit arm of `DispatchKeepsValid`. */
  lemma DispatchSubmitKeepsValid(s: State, id: SessionId, code: string, language: string, env: Env)
    requires Valid(s)
    ensures var (o, k) := Dispatch(s, id, SubmitCode(code, language), env);
            && Valid(o.state) && HeapGrows(s, o.state)
            && (k.Some? ==> Resumable(o.state, k.value))
  {
    SubmitKeepsValid(s, id, code, language, env);
  }

  /** The disconnect arm of `DispatchKeepsValid`. */
  lemma DispatchDisconnectKeepsValid(s: State, id: SessionId, env: Env)
    requires Valid(s) && IsEnumeration(env.roomOrder, s.customRooms.Keys)
    ensures var (o, k) := Dispatch(s, id, Disconnect, env);
            && Valid(o.state) && HeapGrows(s, o.state) && k.None?
  {
    var o := DisconnectAll(s, id, env);
    assert Dispatch(s, id, Disconnect, env) == (o, None);
    DisconnectCascade(s, id, env);
  }

  lemma CreateRoomKeepsValid(s: State, id: SessionId, difficulty: Difficulty, env: Env)
    requires Valid(s)
    ensures var s' := Rooms.CreateRoom(s, id, difficulty, env.now, env.codeDraws).state;
            Valid(s') && HeapGrows(s, s')
  {
    Rooms.CreateRoomKeepsRegistry(s, id, difficulty, env.now, env.codeDraws);
  }

  lemma JoinRoomKeepsValid(s: State, id: SessionId, code: string)
    requires Valid(s)
    ensures var s' := Rooms.JoinRoom(s, id, code).state;
            Valid(s') && HeapGrows(s, s')
  {
    Rooms.JoinRoomKeepsRegistry(s, id, code);
  }

  lemma LeaveRoomKeepsValid(s: State, id: SessionId, roomId: RoomId)
    requires Valid(s)
    ensures var s' := Rooms.LeaveRoom(s, id, roomId).state;
            Valid(s') && HeapGrows(s, s')
  {
    Rooms.LeaveRoomKeepsRegistry(s, id, roomId);
  }

  lemma StartKeepsValid(s: State, id: SessionId, roomId: RoomId, env: Env)
    requires Valid(s)
    ensures var s' := Rooms.StartRoomMatch(s, id, roomId, env.draw).state;
            Valid(s') && HeapGrows(s, s')
  {
    if roomId in s.customRooms {
      var room := s.customRooms[roomId];
      if room.host == id && |room.players| == 2 {
      }
    }
  }

  lemma SubmitKeepsValid(s: State, id: SessionId, code: string, language: string, env: Env)
    requires Valid(s)
    ensures var (o, p) := DuelHandler.SubmitCode(s, id, code, language, env.now);
            Valid(o.state) && HeapGrows(s, o.state) && (p.Some? ==> DuelHandler.PendingOk(o.state, p.value))
  {
    DuelHandler.SubmitKeepsHeap(s, id, code, language, env.now);
  }

  lemma JoinQueueKeepsValid(s: State, id: SessionId, difficulty: Option<Difficulty>, env: Env)
    requires Valid(s)
    ensures var s' := Matchmaking.JoinQueue(s, id, difficulty, env.now, env.connected, env.draw).state;
            Valid(s') && HeapGrows(s, s')
  {
    Matchmaking.JoinQueueKeepsQueueOk(s, id, difficulty, env.now, env.connected, env.draw);
    Matchmaking.JoinQueueKeepsHeap(s, id, difficulty, env.now, env.connected, env.draw);
  }

  /** Resuming keeps the invariant and every other suspended continuation. */
  lemma ResumeKeepsValid(s: State, k: Continuation, attempts: seq<Attempt>, other: Continuation)
    requires Valid(s) && Resumable(s, k) && |attempts| == JudgeCalls(k)
    ensures var s' := Resume(s, k, attempts).state;
            && Valid(s') && HeapGrows(s, s')
            && (Resumable(s, other) ==> Resumable(s', other))
  {
    if k.Scoring? && other.Scoring? {
      DuelHandler.CompleteKeepsHeap(s, k.pending, attempts, other.pending);
    }
  }

  lemma SweepKeepsValid(s: State, env: Env)
    requires Valid(s) && IsEnumeration(env.roomOrder, s.customRooms.Keys)
    ensures Valid(Sweep(s, env))
  {
    Rooms.SweepKeepsFreshRooms(s.customRooms, env.now, env.roomOrder);
  }

  /** A continuation suspended before a step of the heap-growing kind can
      still be resumed after it. */
  lemma ResumableAfterGrowth(s: State, s': State, k: Continuation)
    requires Resumable(s, k) && HeapGrows(s, s')
    ensures Resumable(s', k)
  {
  }

  /** A handler suspended at its `await` can still be resumed after any other
      client event has been handled in the meantime. */
  lemma DispatchKeepsResumable(s: State, id: SessionId, req: Request, env: Env, k: Continuation)
    requires Valid(s) && Resumable(s, k)
    requires req.Disconnect? ==> IsEnumeration(env.roomOrder, s.customRooms.Keys)
    ensures Resumable(Dispatch(s, id, req, env).0.state, k)
  {
    DispatchKeepsValid(s, id, req, env);
    ResumableAfterGrowth(s, Dispatch(s, id, req, env).0.state, k);
  }

  // ---- disconnect ----

  /** After a disconnect the session is gone from every table: the queue, the
      legacy waiting list, every custom room and the bindings. The submission
      maps, submissions and problems are untouched, and other sessions keep
      their bindings. */
  lemma DisconnectCascade(s: State, id: SessionId, env: Env)
    requires Valid(s) && IsEnumeration(env.roomOrder, s.customRooms.Keys)
    ensures var o := DisconnectAll(s, id, env);
            && Valid(o.state) && HeapGrows(s, o.state)
            && id !in Matchmaking.Sessions(o.state.queue)
            && id !in o.state.waitingQueue
            && id !in o.state.userRooms
            && (forall r :: r in o.state.customRooms ==> id !in o.state.customRooms[r].players)
            && o.state.roomSubmissions == s.roomSubmissions && o.state.boards == s.boards
            && o.state.submissions == s.submissions && o.state.roomProblems == s.roomProblems
            && (forall other :: other != id && other in s.userRooms ==>
                  other in o.state.userRooms && o.state.userRooms[other] == s.userRooms[other])
  {
    var m := Matchmaking.LeaveQueue(s, id, env.connected);
    Matchmaking.LeaveQueueKeepsOthers(s, id, env.connected);
    Rooms.DisconnectRoomsClears(s.customRooms, id, env.roomOrder);
  }

  /** The rest of the room hears `opponent_left` once, after every other
      disconnect event, and only when the session was bound to a room. */
  lemma OpponentLeftOnce(s: State, id: SessionId, env: Env)
    requires Valid(s) && IsEnumeration(env.roomOrder, s.customRooms.Keys)
    ensures var o := DisconnectAll(s, id, env);
            && (id in s.userRooms ==>
                  && o.events[|o.events| - 1] == Event(ToRoomExcept(s.userRooms[id], id), OpponentLeft)
                  && forall k :: 0 <= k < |o.events| - 1 ==> !o.events[k].message.OpponentLeft?)
            && (id !in s.userRooms ==> forall e :: e in o.events ==> !e.message.OpponentLeft?)
  {
    var before := Matchmaking.LeaveQueue(s, id, env.connected).events
                  + Rooms.DisconnectRooms(s.customRooms, id, env.roomOrder).1;
    BeforeOpponentLeft(s, id, env);
    SignalingTail(s, id, env);
    if id in s.userRooms {
      OpponentLeftLast(before, [Event(ToRoomExcept(s.userRooms[id], id), OpponentLeft)],
                       Event(ToRoomExcept(s.userRooms[id], id), OpponentLeft));
    }
  }

  /** The signaling handler adds exactly one `opponent_left` event after the
      queue and room events when the session was bound, and nothing
      otherwise. */
  lemma SignalingTail(s: State, id: SessionId, env: Env)
    requires BindingsNamed(s) && IsEnumeration(env.roomOrder, s.customRooms.Keys)
    ensures var before := Matchmaking.LeaveQueue(s, id, env.connected).events
                          + Rooms.DisconnectRooms(s.customRooms, id, env.roomOrder).1;
            var o := DisconnectAll(s, id, env);
            && (id in s.userRooms ==> o.events == before + [Event(ToRoomExcept(s.userRooms[id], id), OpponentLeft)])
            && (id !in s.userRooms ==> o.events == before)
  {
    var m := Matchmaking.LeaveQueue(s, id, env.connected);
    var rooms := Rooms.DisconnectRooms(s.customRooms, id, env.roomOrder);
    var s1 := m.state.(customRooms := rooms.0);
    assert s1.userRooms == s.userRooms;
    assert RoomOf(s1, id).Some? <==> id in s.userRooms;
    if id !in s.userRooms {
      assert m.events + rooms.1 + [] == m.events + rooms.1;
    }
  }

  /** Appending the one `opponent_left` event to events without one makes it
      the last and only such event. */
  lemma OpponentLeftLast(before: seq<Event>, rest: seq<Event>, e: Event)
    requires forall k :: 0 <= k < |before| ==> !before[k].message.OpponentLeft?
    requires rest == [e]
    ensures var all := before + rest;
            && all[|all| - 1] == e
            && forall k :: 0 <= k < |all| - 1 ==> !all[k].message.OpponentLeft?
  {
    var all := before + rest;
    forall k | 0 <= k < |all| - 1 ensures !all[k].message.OpponentLeft? {
      assert all[k] == before[k];
    }
  }

  /** The queue broadcast and the room rebroadcasts that precede the
      signaling handler never say `opponent_left`. */
  lemma BeforeOpponentLeft(s: State, id: SessionId, env: Env)
    requires IsEnumeration(env.roomOrder, s.customRooms.Keys)
    ensures var before := Matchmaking.LeaveQueue(s, id, env.connected).events
                          + Rooms.DisconnectRooms(s.customRooms, id, env.roomOrder).1;
            forall k :: 0 <= k < |before| ==> !before[k].message.OpponentLeft?
  {
    var m := Matchmaking.LeaveQueue(s, id, env.connected);
    var rooms := Rooms.DisconnectRooms(s.customRooms, id, env.roomOrder);
    NoOpponentLeftInConcat(m.events, rooms.1);
  }

  lemma NoOpponentLeftInConcat(a: seq<Event>, b: seq<Event>)
    requires forall e :: e in a ==> !e.message.OpponentLeft?
    requires forall e :: e in b ==> !e.message.OpponentLeft?
    ensures forall k :: 0 <= k < |a + b| ==> !(a + b)[k].message.OpponentLeft?
  {
    forall k | 0 <= k < |a + b| ensures !(a + b)[k].message.OpponentLeft? {
      assert (a + b)[k] in a || (a + b)[k] in b;
    }
  }
}

=== FILE: signaling.dfy ===
/** The signaling module's `disconnect` handler: the session leaves the
    legacy waiting list and, if it was bound to a room, the rest of that room
    hears that its opponent left and the binding is dropped. Submissions and
    the room's problem are kept so the remaining player can still see them. */
module Signaling {
  import opened Common
  import opened GameState

  function Disconnect(s: State, id: SessionId): (o: Outcome)
    ensures o.state.waitingQueue == RemoveAll(s.waitingQueue, id) && id !in o.state.waitingQueue
    ensures |o.events| == 1 <==> RoomOf(s, id).Some?
    ensures RoomOf(s, id).None? ==> o.events == [] && o.state.userRooms == s.userRooms
    ensures RoomOf(s, id).Some? ==>
              && o.events == [Event(ToRoomExcept(RoomOf(s, id).value, id), OpponentLeft)]
              && id !in o.state.userRooms
    ensures forall other :: other != id ==> (other in o.state.userRooms <==> other in s.userRooms)
    ensures forall other :: other != id && other in s.userRooms ==> o.state.userRooms[other] == s.userRooms[other]
    ensures o.state == s.(waitingQueue := o.state.waitingQueue, userRooms := o.state.userRooms)
  {
    var s1 := s.(waitingQueue := RemoveAll(s.waitingQueue, id));
    match RoomOf(s, id)
    case None => Outcome(s1, [])
    case Some(roomId) => Outcome(s1.(userRooms := s.userRooms - {id}), [Event(ToRoomExcept(roomId, id), OpponentLeft)])
  }

  /** Everyone else waiting stays in the legacy list, in order; a session
      listed once is removed from exactly its position. */
  lemma DisconnectKeepsOtherWaiters(s: State, id: SessionId, i: nat)
    requires Distinct(s.waitingQueue) && i < |s.waitingQueue| && s.waitingQueue[i] == id
    ensures Disconnect(s, id).state.waitingQueue == s.waitingQueue[..i] + s.waitingQueue[i + 1..]
  {
    RemoveAllAt(s.waitingQueue, i);
  }
}

=== FILE: validation.dfy ===
/** The static checks the socket handlers run on client payloads before
    touching any state: submitted code, language names and room codes. */
module Validation {

  /** The largest submission accepted, in UTF-16 code units (about 50 KB). */
  const MaxCodeLength := 50000

  const CodeRequired := "Code is required"
  const CodeTooLarge := "Code too large (max 50KB)"

  datatype CodeCheck = Valid | Invalid(error: string)

  /** The length JavaScript reports for a string: characters outside the Basic
      Multilingual Plane occupy two UTF-16 code units. */
  function Utf16Length(s: string): (n: nat)
    ensures |s| <= n <= 2 * |s|
  {
    if s == [] then 0
    else (if s[0] as int > 0xFFFF then 2 else 1) + Utf16Length(s[1..])
  }

  /** Empty code is refused first, then code longer than the limit; anything
      else passes. */
  function ValidateCode(code: string): (r: CodeCheck)
    ensures r == Invalid(CodeRequired) <==> |code| == 0
    ensures r == Invalid(CodeTooLarge) <==> |code| > 0 && Utf16Length(code) > MaxCodeLength
    ensures r == Valid <==> |code| > 0 && Utf16Length(code) <= MaxCodeLength
  {
    if |code| == 0 then Invalid(CodeRequired)
    else if Utf16Length(code) > MaxCodeLength then Invalid(CodeTooLarge)
    else Valid
  }

  /** Whatever its characters, code of 25000 characters or fewer fits the
      limit, and code of more than 50000 characters never does. */
  lemma CodeLengthBounds(code: string)
    ensures 0 < |code| <= MaxCodeLength / 2 ==> ValidateCode(code) == Valid
    ensures |code| > MaxCodeLength ==> ValidateCode(code) == Invalid(CodeTooLarge)
  {
  }

  /** Only the three languages the judge is configured for are accepted. */
  function ValidateLanguage(language: string): (ok: bool)
    ensures ok <==> language == "javascript" || language == "python" || language == "java"
  {
    language in ["javascript", "python", "java"]
  }

  predicate IsCodeChar(c: char) {
    'A' <= c <= 'Z' || '0' <= c <= '9'
  }

  /** The pattern `^[A-Z0-9]{6}$`: exactly six upper-case letters or digits. */
  function ValidateRoomCode(code: string): (ok: bool)
    ensures ok ==> |code| == 6
    ensures ok <==> |code| == 6 && forall i :: 0 <= i < |code| ==> IsCodeChar(code[i])
  {
    |code| == 6 && forall c :: c in code ==> IsCodeChar(c)
  }
}
